=== FILE: README.md ===
# Eris container sampling and prm LLC occupancy, in Dafny

This project models two pieces of the co-location agent:

- **Eris's per-container sampling state** (`eris/container.go`). A
  `Container` is created for every discovered container. It holds:
  - the container's CPU x event table of perf_event descriptors;
  - optionally, a pqos monitoring group;
  - "last observed" baselines for memory bandwidth, the perf counters and two
    independent CPU-usage consumers.

  Each poll turns a fresh reading into deltas against a baseline and moves
  the baseline on. The first poll only seeds the baseline. `start` enables
  every descriptor and `finalize` closes them.
- **prm's `LlcOccup` resource** (`prm/prm/llcoccup.py`). From the bit count of
  the platform's cache capacity bitmask (CBM) it builds paired ladders:
  - best-effort (BE) masks, which take the high ways of the last-level cache;
  - latency-critical (LC) masks, which take the remaining low ways.

  For a quota level, it writes an RDT allocation `L3:0=<mask>;1=<mask>;...`
  for every BE and LC container into the nested allocation dictionary. A
  container whose current allocation already has that L3 string is skipped.

Files and modules:

| file | module | contents |
|---|---|---|
| `uint64.dfy` | `Uint64` | Go's wrapping `uint64` `+`, `-` and `*` |
| `text.dfy` | `Text` | `strings.Split` / `str.join` on one separator character, and their round trips |
| `numerals.dfy` | `Numerals` | decimal, binary and hexadecimal numerals; `hex()`, `int(_, 16)` and their round trip |
| `bits.dfy` | `Bits` | powers of two, bits, population count, runs of ones |
| `proc_stat.dfy` | `ProcStat` | the system-time figure taken from the first `/proc/stat` line |
| `perf_scaling.dfy` | `PerfScaling` | the multiplexing-scaled per-event totals of `pollPerf` |
| `eris.dfy` | `Eris` | the `Container` class, `newContainer` and the descriptor table |
| `cbm_ladder.dfy` | `CbmLadder` | `_get_cbm_bit_count` and the BE/LC mask ladders |
| `llcoccup.dfy` | `LlcOccup` | the allocation dictionaries, `_set_alloc`, `budgeting`, and the `LlcOccup` class |

Wherever Go computes in `uint64`, the model does too: differences, sums and
products are taken modulo 2^64. Go's `nil` slices (a baseline not yet seeded)
are `None`. The outcomes of system calls and library calls are parameters of
the methods. This covers opening files and perf_event descriptors,
`listTaskPid`, `newPqosGroup`, `pollPqos`, `readPerf`, and reading
`/proc/stat` and `cpuacct.usage`.

## Model

| member | source | states |
|---|---|---|
| Uint64.Add | eris/container.go:178 | wrapping addition: the exact sum below 2^64, the sum minus 2^64 otherwise |
| Uint64.Sub | eris/container.go:119 | wrapping subtraction: the exact difference, plus 2^64 when the counter went backwards; adding the old value back gives the new one |
| Uint64.AddMod | eris/container.go:173-180 | reducing the running sum modulo 2^64 before adding one more field does not change the result |
| Text.Split | eris/container.go:171 | `strings.Split` yields at least one piece and no piece contains the separator |
| Text.JoinSplit | eris/container.go:171 | joining the pieces of a split with the separator gives back the line |
| Text.SplitJoin | prm/prm/llcoccup.py:91-92 | splitting a `';'.join` of separator-free pieces gives back exactly those pieces |
| Text.SplitLastEndsWith | eris/container.go:167-171 | the last piece of a split line ends with the line's last character, here the `'\n'` ReadString keeps |
| ProcStat.ParseUint | eris/container.go:174 | `strconv.ParseUint(_, 10, 64)` accepts only non-empty all-digit pieces |
| ProcStat.ParseUintRoundTrip | eris/container.go:174 | every uint64 written in decimal parses back to itself |
| ProcStat.ParseUintRejects | eris/container.go:174-176 | a piece with a non-digit character (a line break, a label) is rejected and adds nothing |
| ProcStat.SystemTicks | eris/container.go:171-181 | the loop over the stat line's pieces after the label, then the scaling: the result is the exact sum of the pieces that parse, times 10,000,000, modulo 2^64 |
| ProcStat.MulMod | eris/container.go:181 | multiplying the wrapped sum gives the same residue as multiplying the exact sum |
| ProcStat.LastFieldSkipped | eris/container.go:167-181 | the last field still carries the `'\n'`, so the total is that of the fields strictly between the label and the line end |
| ProcStat.StatSumSnoc | eris/container.go:173-180 | a field that parses adds its value; an empty field (two neighbouring spaces) adds nothing |
| ProcStat.StatLineExample | eris/container.go:171-181 | for `"cpu  3 4\n"` only the 3 counts: the doubled space gives an empty field and the 4 keeps the line break |
| PerfScaling.ScaledNoMultiplexing | eris/container.go:147-148 | when running time equals enabled time, the scaled delta is the raw delta |
| PerfScaling.ScaledBound | eris/container.go:148 | when running time does not exceed enabled time, the scaled delta never exceeds the raw delta |
| PerfScaling.QuotientBound | eris/container.go:148 | x * y / d <= x for y <= d, so the uint64 conversion of the scaled value keeps it |
| PerfScaling.PerfTotals | eris/container.go:143-153 | the accumulation loop: one total per event, equal to the sum over CPUs of the scaled deltas of the CPUs whose enabled time moved, modulo 2^64 |
| PerfScaling.NoMultiplexingTotals | eris/container.go:143-153 | with no multiplexing on any CPU, an event's total is the plain sum of its raw deltas over the CPUs whose enabled time moved |
| PerfScaling.IdleCpuIgnored | eris/container.go:147-149 | what a CPU reports is ignored entirely while its enabled time did not move |
| PerfScaling.TotalsBounded | eris/container.go:143-153 | with running time never above enabled time, no event's total exceeds its raw delta sum |
| Eris.RemoteEstimate | eris/container.go:121-125 | the remote-bandwidth estimate is zero exactly when total traffic does not exceed local traffic; otherwise local plus the estimate is the total |
| Eris.CpuStep | eris/container.go:190-197 | the new baseline is {usage, system}; there is no result exactly on the first reading; the deltas added to the old baseline give the new reading |
| Eris.FillHandleTable | eris/container.go:62-76 | the descriptor table holds each CPU's leader outcome and, for CPUs whose leader opened, each follower's outcome; followers of a failed leader stay unassigned; opens are attempted row-major, the leader of every CPU and the followers of exactly the CPUs whose leader opened |
| Eris.HandleTableWellFormed | eris/container.go:62-76 | every table so built is rectangular, its leader slots are assigned, and a CPU's followers are unassigned exactly when its leader did not open |
| Eris.FlattenIndex | eris/container.go:87-88 | walking the table row by row visits slot (i, j) at position i * numEvents + j |
| Eris.OpenFdsExact | eris/container.go:200-205 | a descriptor is listed exactly when some slot holds it open |
| Eris.FailedLeaderLeavesUnset | eris/container.go:62-69 | with two or more events, a CPU whose leader failed leaves an unassigned (zero) slot in the table |
| Eris.NewContainer | eris/container.go:37-84 | failing to open the cgroup or the cpuacct file is fatal; otherwise the result has the table described above, the pqos group exactly when the pids were listed and the group created, the classification flags from the two name tables, and no baselines |
| Eris.Container.constructor | eris/container.go:16-39 | the fields as newContainer leaves them: identity, table, pqos state, classification flags, every baseline unset, monitoring not started |
| Eris.WalkSlots | eris/container.go:87-88 | the double loop over CPUs and events visits every slot of the table exactly once, row by row, in the order of the flattened table |
| Eris.Container.Start | eris/container.go:86-95 | startPerf is issued on every slot, row by row |
| Eris.Container.PollCacheOccupancy | eris/container.go:97-102 | an error exactly when the pqos poll fails; otherwise the LLC occupancy in KiB, rounded down |
| Eris.Container.PollMemoryBandwidth | eris/container.go:104-128 | a failed poll returns nothing and keeps the baseline; the first successful poll seeds [total, local] and returns nothing; later polls return both wrapping deltas and the remote estimate and move the baseline on |
| Eris.Container.PollPerf | eris/container.go:130-159 | every poll replaces all three baselines with the new reads; there is a result exactly when a baseline existed, with one total per event as in PerfTotals |
| Eris.Container.PollCPUUsage | eris/container.go:161-198 | the consumer flag selects one of the two baselines; that baseline takes one CpuStep with the cgroup usage and the stat line's system figure, and the other baseline is untouched |
| Eris.Container.FinalizeAsWritten | eris/container.go:200-205 | Close is issued on every slot, row by row; with two or more events and a failed leader, an unassigned slot (descriptor 0) is among them |
| Eris.Container.Finalize | eris/container.go:200-205 | corrected: closes each opened descriptor, in table order, and nothing else |
| Numerals.Format | prm/prm/llcoccup.py:59 | the numeral `bin()`/`str()`/`hex()` print: non-empty, lower-case digits of its base, no leading zero except for 0 itself; FormatRoundTrip reads it back |
| Numerals.FormatRoundTrip | prm/prm/llcoccup.py:59 | reading back the numeral `bin()`/`str()` writes gives the number |
| Numerals.Hex | prm/prm/llcoccup.py:47-50 | `hex()` output starts with `0x` and has at least one digit |
| Numerals.ParseHex | prm/prm/llcoccup.py:58 | `int(s, 16)` succeeds only on an optional `0x`/`0X` prefix followed by hexadecimal digits, and yields their value |
| Numerals.HexRoundTrip | prm/prm/llcoccup.py:58 | `int(hex(n), 16) == n` |
| Numerals.NumeralHasNo | prm/prm/llcoccup.py:91 | a socket number written in decimal holds no `;` or `=` |
| Numerals.HexHasNo | prm/prm/llcoccup.py:91-92 | a `hex()` mask holds no `;` or `=` |
| Numerals.Count | prm/prm/llcoccup.py:60-61 | the length of the list of `'1'` characters is at most the string's length; that it equals the popcount is Bits.BinaryOnesArePopCount |
| Bits.OnesBits | prm/prm/llcoccup.py:47-50 | a run of ones sets exactly the bits of its range |
| Bits.OnesPopCount | prm/prm/llcoccup.py:60-61 | a run of k ones has k set bits |
| Bits.OnesValue | prm/prm/llcoccup.py:47-49 | `((1 << len) - 1) << lo` is the run of len ones starting at bit lo |
| Bits.BinaryOnesArePopCount | prm/prm/llcoccup.py:59-61 | the `'1'` characters of `bin(x)[2:]` are exactly the set bits of x |
| CbmLadder.CbmBitCount | prm/prm/llcoccup.py:56-61 | `_get_cbm_bit_count` fails exactly when `int(mask, 16)` does, and otherwise is the popcount of the mask |
| CbmLadder.CbmBitCountOfRun | prm/prm/llcoccup.py:56-61 | a hex-printed run of k ways counts k bits |
| CbmLadder.BeLadder | prm/prm/llcoccup.py:47-48 | the BE ladder has one entry per level in `range(1, bitcnt)`; the entries are stated by LadderEntries and LadderBitCounts |
| CbmLadder.LcLadder | prm/prm/llcoccup.py:49-50 | the LC ladder has one entry per level in `range(1, bitcnt)`; the entries are stated by LadderEntries and LadderBitCounts |
| CbmLadder.Take | prm/prm/llcoccup.py:52-53 | the Python slice `[0:n]` keeps the first n entries, or all of them when there are fewer |
| CbmLadder.LevelRuns | prm/prm/llcoccup.py:47-50 | level i's BE mask is the run of the i + 1 highest ways and its LC mask is the run of the bitcnt - 1 - i lowest ways |
| CbmLadder.LevelMasks | prm/prm/llcoccup.py:47-50 | at every level the BE and LC masks share no way and together make up the full mask `(1 << bitcnt) - 1` |
| CbmLadder.LevelSum | prm/prm/llcoccup.py:47-50 | the BE and LC masks of a level add up to `(1 << bitcnt) - 1` |
| CbmLadder.LadderEntries | prm/prm/llcoccup.py:47-50 | `int(_, 16)` reads every ladder entry back as its mask |
| CbmLadder.LadderBitCounts | prm/prm/llcoccup.py:47-50 | level k gives BE k + 2 ways and LC bitcnt - 2 - k ways |
| CbmLadder.LadderMonotonic | prm/prm/llcoccup.py:47-50 | going up the ladder strictly grows BE's share and strictly shrinks LC's |
| CbmLadder.LaddersShape | prm/prm/llcoccup.py:51-54 | both ladders have bitcnt / 2 levels in exclusive mode and bitcnt - 1 otherwise; a non-negative level_max indexes them; without exclusive mode it is the top level; in exclusive mode the levels up to level_max are exactly those where BE gets no more ways than LC |
| LlcOccup.SetAllocEffect | prm/prm/llcoccup.py:63-82 | an allocation already in cur_allocs leaves new_allocs alone; otherwise that task's RDT entry becomes (name, alloc) and the task is added if missing; its other allocation types and every other task are kept |
| LlcOccup.SetAllocIdempotent | prm/prm/llcoccup.py:63-82 | requesting the same allocation twice changes nothing the second time |
| LlcOccup.ApplyAllEffect | prm/prm/llcoccup.py:97-98 | after the loop every listed container is allocated; one whose current allocation lacks the schema has (name, schema) as its RDT entry in new_allocs; a task not listed, or whose current allocation already has the schema, keeps exactly what it had; every task keeps its allocation types other than RDT |
| LlcOccup.PyIndex | prm/prm/llcoccup.py:91 | Python indexing succeeds exactly for -len <= i < len and agrees with the sequence for non-negative i |
| LlcOccup.GroupSchema | prm/prm/llcoccup.py:84-92 | building the schema raises IndexError exactly when there is at least one socket and quota_level does not index the ladder |
| LlcOccup.L3SchemaSegments | prm/prm/llcoccup.py:91-92 | the schema is `L3:` followed by one `<k>=<mask>` segment per socket, in socket order, and each segment's number reads back as k |
| LlcOccup.LadderSchemaSegments | prm/prm/llcoccup.py:84-92 | for a level of the ladders update_allocs built and at least one socket, the schema is built from the ladder entry, that entry reads back as the level's BE or LC mask, and the schema splits into one `<k>=<mask>` segment per socket |
| LlcOccup.BudgetingEffect | prm/prm/llcoccup.py:95-105 | when quota_level indexes both ladders, budgeting completes; an LC container whose current allocation lacks the LC schema gets it; a BE container whose current allocation lacks the BE schema gets it unless it is also listed as LC and does not already have the LC schema, in which case it gets the LC schema; a task neither block has to change keeps exactly what it had; every task keeps its allocation types other than RDT |
| LlcOccup.BudgetingBothListsKeepsBe | prm/prm/llcoccup.py:95-105 | a container listed in both groups whose current allocation already has the LC schema ends with the BE schema in new_allocs, because the LC block compares against cur_allocs, not new_allocs |
| LlcOccup.LlcOccup.constructor | prm/prm/llcoccup.py:33-39 | empty ladders, no allocations yet, the exclusive flag as given |
| LlcOccup.LlcOccup.UpdateAllocs | prm/prm/llcoccup.py:41-54 | stores both allocation maps and the socket count; builds the ladders and level_max from the mask's bit count only while be_bmp is empty; fails, with the ladders untouched, where `_get_cbm_bit_count` raises |
| LlcOccup.LlcOccup.SetAlloc | prm/prm/llcoccup.py:63-82 | new_allocs becomes the value SetAllocEffect describes |
| LlcOccup.LlcOccup.Budget | prm/prm/llcoccup.py:84-93 | raises exactly when the schema cannot be built; otherwise requests the group's schema for the container |
| LlcOccup.LlcOccup.BudgetIds | prm/prm/llcoccup.py:96-100 | one group's block: each container in turn, then the log line's second ladder lookup |
| LlcOccup.LlcOccup.Budgeting | prm/prm/llcoccup.py:95-105 | the BE block, then, unless it raised, the LC block; it never raises for a quota level between 0 and level_max |

## Left out

- The pqos library, the perf_event system calls, `os.Open`, `ReadString` and `Fscanf` are not modelled. Their outcomes are method parameters: `PqosPoll`, the open outcomes, the perf reads, the stat line and the usage value.
- Logging (`log.Println`, `log.info`) is not modelled. Only the ladder lookup in `budgeting`'s log line is kept, because it can raise IndexError.
- PerfScaling.Scaled: Go computes `float64(raw) / float64(enabled) * float64(running)` in float64 and truncates; the model uses exact rational arithmetic truncated toward zero. For deltas below 2^53 Go divides before it multiplies and can lose one against the exact value: raw 61 with enabled = running = 7 gives 60.99999999999999 and hence 60, and raw 1 with enabled = running = 49 gives 0. Above 2^53, `float64(raw)` itself rounds, so Go's result can land above the exact value or below it by more than one: raw 2^53 + 3 with enabled = running = 1 gives 2^53 + 4, and raw 2^60 + 100 with enabled = running = 3 gives 100 less than the exact value. A counter that went backwards yields a wrapped delta just below 2^64, which falls in that range; with raw 2^64 - 5 and enabled = running the float64 value is 2^64, outside uint64, where Go's conversion is implementation-defined and the model returns the delta unchanged. PerfScaling.ScaledNoMultiplexing, PerfScaling.NoMultiplexingTotals, PerfScaling.ScaledBound and PerfScaling.TotalsBounded therefore hold of the exact model, not of the Go code.
- Eris.Container.PollPerf: the values `readPerf` returns on an error are taken as given. The model requires one value per event for every CPU; Go would panic on a short read slice.
- Eris.Container.PollCPUUsage: a failed open or read of `/proc/stat` makes Go panic. The model requires instead a line ending in `'\n'`. When `Fscanf` fails, usage stays 0, and the caller passes 0.
- Numerals.ParseHex: Python's `int(s, 16)` also accepts surrounding whitespace, `_` between digits and a sign. `ParseHex` rejects all three.
- `c.file.Fd()` and the descriptor values passed to the follower opens are not modelled. The open outcomes are parameters.
- `newContainer` leaks the already-open cgroup directory when the cpuacct file fails to open. File handles are not modelled.
- `removePqosGroup` and the two file closes at the end of `finalize` are not modelled. `Finalize` returns only the descriptors it closes.
- `cacheOccupancySum`, `cacheOccupancyCount` and `monitorStarted` are kept as fields. No modelled operation updates them.
- Eris.Container.PollCacheOccupancy and Eris.Container.PollMemoryBandwidth accept any poll outcome, including a successful one for a container without a pqos group. Go dereferences `c.pqosMonitorData` there, which is nil without a group; what `pollPqos` does with nil is not part of this model, so such polls are left unconstrained.
- `numCPU` and `len(peCounters)` are package-level in Eris. Here they are constants of each `Container`.
- Eris.NewContainer and Eris.FillHandleTable require at least one perf event. With an empty `peCounters` and at least one CPU, Go panics on `ret.fds[i][0]` (eris/container.go:64-65); that panic is not modelled.
- owca's `RDTAllocation` is reduced to `name` and `l3`. Python updates an existing `RDTAllocation` object and task dictionary in place; the model treats the dictionaries as values. Aliasing between `cur_allocs` and `new_allocs` objects is therefore not captured.
- `quota_level` is an attribute of prm's `Resource` base class, which is not part of this model. Here it is a field that callers set.
- Before `update_allocs`, `cur_allocs` is `None` and `_set_alloc` raises TypeError. The model requires `update_allocs` to have run (`allocsSet`).
- Exceptions other than IndexError in `budgeting` and ValueError in `update_allocs` are not modelled. Examples are a `quota_level` that is not an int, and `nsocks` that is negative or not an int.

## Findings

| source | as written | input that shows it | evidently intended | confidence | as-written member | corrected member |
|---|---|---|---|---|---|---|
| eris/container.go:200-205 | `finalize` calls `syscall.Close` on every slot of the descriptor table | a container with two or more perf events whose leader fails to open on some CPU: that CPU's follower slots keep Go's zero value, so `Close(0)` is issued once per such slot: the first closes standard input, later ones fail or close whatever then holds descriptor 0, possibly another container's perf counter | close only the descriptors that were opened | medium, not executed | Eris.Container.FinalizeAsWritten | Eris.Container.Finalize |

=== FILE: bits.dfy ===
/** Bits of natural numbers, as Python's unbounded ints have them: the bit at
    a position, powers of two (left shifts), runs of ones and population count. */
module Bits {

  import Numerals

  function Pow2(n: nat): (r: nat)
    ensures r >= 1
  {
    if n == 0 then 1 else 2 * Pow2(n - 1)
  }

  /** Python's x << n. */
  function Shl(x: nat, n: nat): nat
  {
    x * Pow2(n)
  }

  /** Whether bit p of x is set: (x >> p) & 1 == 1. */
  predicate Bit(x: nat, p: nat)
  {
    if p == 0 then x % 2 == 1 else Bit(x / 2, p - 1)
  }

  /** The number of set bits. */
  function PopCount(x: nat): nat
  {
    if x == 0 then 0 else x % 2 + PopCount(x / 2)
  }

  /** The number whose set bits are exactly the run lo .. lo + len - 1. */
  function Ones(lo: nat, len: nat): nat
  {
    if lo > 0 then 2 * Ones(lo - 1, len)
    else if len == 0 then 0
    else 2 * Ones(0, len - 1) + 1
  }

  /** Exactly the bits in [lo, hi) are set in x. */
  ghost predicate SetExactly(x: nat, lo: nat, hi: nat)
  {
    forall p: nat :: Bit(x, p) <==> lo <= p < hi
  }

  lemma BitDouble(x: nat, p: nat)
    ensures Bit(2 * x, p) <==> p > 0 && Bit(x, p - 1)
    ensures Bit(2 * x + 1, p) <==> p == 0 || Bit(x, p - 1)
  {
    if p > 0 {
      assert (2 * x) / 2 == x;
      assert (2 * x + 1) / 2 == x;
    }
  }

  lemma {:induction false} BitZero(p: nat)
    ensures !Bit(0, p)
  {
    if p > 0 {
      BitZero(p - 1);
    }
  }

  /** The run Ones(lo, len) has its bits set at lo .. lo + len - 1 and nowhere else. */
  lemma {:induction false} OnesBits(lo: nat, len: nat, p: nat)
    ensures Bit(Ones(lo, len), p) <==> lo <= p < lo + len
    decreases lo, len
  {
    if lo > 0 {
      BitDouble(Ones(lo - 1, len), p);
      if p > 0 {
        OnesBits(lo - 1, len, p - 1);
      }
    } else if len == 0 {
      BitZero(p);
    } else {
      BitDouble(Ones(0, len - 1), p);
      if p > 0 {
        OnesBits(0, len - 1, p - 1);
      }
    }
  }

  lemma OnesSetExactly(lo: nat, len: nat)
    ensures SetExactly(Ones(lo, len), lo, lo + len)
  {
    forall p: nat ensures Bit(Ones(lo, len), p) <==> lo <= p < lo + len {
      OnesBits(lo, len, p);
    }
  }

  /** A run of len ones has len set bits. */
  lemma {:induction false} OnesPopCount(lo: nat, len: nat)
    ensures PopCount(Ones(lo, len)) == len
    decreases lo, len
  {
    if lo > 0 {
      var x := Ones(lo - 1, len);
      OnesPopCount(lo - 1, len);
      assert (2 * x) % 2 == 0 && (2 * x) / 2 == x;
    } else if len > 0 {
      var x := Ones(0, len - 1);
      OnesPopCount(0, len - 1);
      assert (2 * x + 1) % 2 == 1 && (2 * x + 1) / 2 == x;
    }
  }

  lemma {:induction false} Pow2Add(a: nat, b: nat)
    ensures Pow2(a + b) == Pow2(a) * Pow2(b)
  {
    if a > 0 {
      Pow2Add(a - 1, b);
      assert Pow2(a + b) == 2 * Pow2(a - 1 + b);
    }
  }

  /** The arithmetic form Python writes a run in: ((1 << len) - 1) << lo. */
  lemma {:induction false} OnesValue(lo: nat, len: nat)
    ensures Ones(lo, len) == Shl(Pow2(len) - 1, lo)
    decreases lo, len
  {
    if lo > 0 {
      OnesValue(lo - 1, len);
      calc {
        Ones(lo, len);
        2 * ((Pow2(len) - 1) * Pow2(lo - 1));
        (Pow2(len) - 1) * (2 * Pow2(lo - 1));
        (Pow2(len) - 1) * Pow2(lo);
      }
    } else if len > 0 {
      OnesValue(0, len - 1);
    }
  }

  /** bin(x)[2:] holds as many '1' characters as x has set bits. */
  lemma {:induction false} BinaryOnesArePopCount(x: nat)
    ensures Numerals.Count(Numerals.Format(x, 2), '1') == PopCount(x)
    decreases x
  {
    var s := Numerals.Format(x, 2);
    if x < 2 {
      assert s == [Numerals.DigitChar(x)];
      assert s[..0] == [];
      assert x == 0 || PopCount(x) == 1 + PopCount(0);
    } else {
      var front := Numerals.Format(x / 2, 2);
      Numerals.DivLess(x, 2);
      BinaryOnesArePopCount(x / 2);
      assert s == front + [Numerals.DigitChar(x % 2)];
      assert s[..|s| - 1] == front;
      assert (s[|s| - 1] == '1') == (x % 2 == 1);
    }
  }
}

=== FILE: cbm_ladder.dfy ===
/** Intel RDT Cache Allocation Technology capacity bitmasks (CBMs): the bit
    count of the platform's full CBM and the paired ladders of best-effort (BE)
    and latency-critical (LC) masks that LlcOccup.update_allocs builds from it.

    Level k of the ladders gives the BE group the k + 2 highest ways of the
    cache and the LC group the remaining low ways. */
module CbmLadder {

  import opened Wrappers
  import opened Numerals
  import opened Bits

  /** LlcOccup._get_cbm_bit_count: the number of '1' digits in bin(int(mask, 16)),
      or None where int() raises ValueError. */
  function CbmBitCount(cbmMask: string): (r: Option<nat>)
    ensures r.Some? <==> ParseHex(cbmMask).Some?
    ensures r.Some? ==> r.value == PopCount(ParseHex(cbmMask).value)
  {
    match ParseHex(cbmMask)
    case None => None
    case Some(cbm) =>
      BinaryOnesArePopCount(cbm);
      Some(Count(Format(cbm, 2), '1'))
  }

  /** A CBM of k contiguous ways, as hex() prints it, counts k bits. */
  lemma CbmBitCountOfRun(lo: nat, k: nat)
    ensures CbmBitCount(Hex(Ones(lo, k))) == Some(k)
  {
    HexRoundTrip(Ones(lo, k));
    OnesPopCount(lo, k);
  }

  /** The BE mask for i in range(1, bitcnt): ((1 << (i + 1)) - 1) << (bitcnt - 1 - i). */
  function BeMask(bitcnt: nat, i: nat): nat
    requires 1 <= i < bitcnt
  {
    Shl(Pow2(i + 1) - 1, bitcnt - 1 - i)
  }

  /** The LC mask for i in range(1, bitcnt): (1 << (bitcnt - 1 - i)) - 1. */
  function LcMask(bitcnt: nat, i: nat): nat
    requires 1 <= i < bitcnt
  {
    Pow2(bitcnt - 1 - i) - 1
  }

  /** len(range(1, bitcnt)). */
  function LadderLength(bitcnt: nat): nat
  {
    if bitcnt >= 1 then bitcnt - 1 else 0
  }

  function BeLadder(bitcnt: nat): (r: seq<string>)
    ensures |r| == LadderLength(bitcnt)
  {
    seq(LadderLength(bitcnt), k requires 0 <= k < LadderLength(bitcnt) => Hex(BeMask(bitcnt, k + 1)))
  }

  function LcLadder(bitcnt: nat): (r: seq<string>)
    ensures |r| == LadderLength(bitcnt)
  {
    seq(LadderLength(bitcnt), k requires 0 <= k < LadderLength(bitcnt) => Hex(LcMask(bitcnt, k + 1)))
  }

  /** Python's s[0:n] for n >= 0: slicing past the end stops at the end. */
  function Take(s: seq<string>, n: nat): (r: seq<string>)
    ensures |r| == if n <= |s| then n else |s|
    ensures forall k :: 0 <= k < |r| ==> r[k] == s[k]
  {
    if n <= |s| then s[..n] else s
  }

  /** be_bmp, lc_bmp and level_max as update_allocs sets them. */
  datatype Ladders = Ladders(be: seq<string>, lc: seq<string>, levelMax: int)

  function BuildLadders(bitcnt: nat, exclusive: bool): Ladders
  {
    if exclusive then
      Ladders(Take(BeLadder(bitcnt), bitcnt / 2), Take(LcLadder(bitcnt), bitcnt / 2), bitcnt / 2 - 2)
    else
      Ladders(BeLadder(bitcnt), LcLadder(bitcnt), bitcnt - 2)
  }

  /** The masks of one level as runs of ones: BE owns the ways
      bitcnt - 1 - i .. bitcnt - 1 and LC the ways 0 .. bitcnt - 2 - i. */
  lemma LevelRuns(bitcnt: nat, i: nat)
    requires 1 <= i < bitcnt
    ensures BeMask(bitcnt, i) == Ones(bitcnt - 1 - i, i + 1)
    ensures LcMask(bitcnt, i) == Ones(0, bitcnt - 1 - i)
  {
    var lo := bitcnt - 1 - i;
    OnesValue(lo, i + 1);
    OnesValue(0, lo);
  }

  /** The masks of one level as sets of ways: they share no way and
      together they make up the full mask (1 << bitcnt) - 1. */
  lemma LevelMasks(bitcnt: nat, i: nat)
    requires 1 <= i < bitcnt
    ensures SetExactly(BeMask(bitcnt, i), bitcnt - 1 - i, bitcnt)
    ensures SetExactly(LcMask(bitcnt, i), 0, bitcnt - 1 - i)
    ensures forall p: nat :: !(Bit(BeMask(bitcnt, i), p) && Bit(LcMask(bitcnt, i), p))
    ensures forall p: nat :: Bit(BeMask(bitcnt, i), p) || Bit(LcMask(bitcnt, i), p) <==> p < bitcnt
    ensures BeMask(bitcnt, i) + LcMask(bitcnt, i) == Pow2(bitcnt) - 1
  {
    var lo := bitcnt - 1 - i;
    LevelRuns(bitcnt, i);
    OnesSetExactly(lo, i + 1);
    OnesSetExactly(0, lo);
    LevelSum(bitcnt, i);
  }

  lemma LevelSum(bitcnt: nat, i: nat)
    requires 1 <= i < bitcnt
    ensures BeMask(bitcnt, i) + LcMask(bitcnt, i) == Pow2(bitcnt) - 1
  {
    var lo := bitcnt - 1 - i;
    var a: int, b: int := Pow2(i + 1), Pow2(lo);
    Pow2Add(i + 1, lo);
    assert i + 1 + lo == bitcnt;
    assert BeMask(bitcnt, i) == (a - 1) * b;
    assert LcMask(bitcnt, i) == b - 1;
    MulPred(a, b);
  }

  lemma MulPred(a: int, b: int)
    ensures (a - 1) * b == a * b - b
  {
  }

  /** Level k of both ladders holds hex() of the masks for i = k + 1, and int(_, 16)
      reads those masks back. */
  lemma LadderEntries(bitcnt: nat, k: nat)
    requires k < LadderLength(bitcnt)
    ensures ParseHex(BeLadder(bitcnt)[k]) == Some(BeMask(bitcnt, k + 1))
    ensures ParseHex(LcLadder(bitcnt)[k]) == Some(LcMask(bitcnt, k + 1))
  {
    var be, lc := BeMask(bitcnt, k + 1), LcMask(bitcnt, k + 1);
    assert BeLadder(bitcnt)[k] == Hex(be);
    assert LcLadder(bitcnt)[k] == Hex(lc);
    HexRoundTrip(be);
    HexRoundTrip(lc);
  }

  /** Counted as _get_cbm_bit_count counts: level k gives BE k + 2 ways and LC
      bitcnt - 2 - k ways, so the two always add up to bitcnt. */
  lemma LadderBitCounts(bitcnt: nat, k: nat)
    requires k < LadderLength(bitcnt)
    ensures CbmBitCount(BeLadder(bitcnt)[k]) == Some(k + 2)
    ensures CbmBitCount(LcLadder(bitcnt)[k]) == Some(bitcnt - 2 - k)
  {
    var m := bitcnt - 2 - k;
    LevelRuns(bitcnt, k + 1);
    var be, lc := BeLadder(bitcnt)[k], LcLadder(bitcnt)[k];
    assert be == Hex(Ones(m, k + 2));
    assert lc == Hex(Ones(0, m));
    CbmBitCountOfRun(m, k + 2);
    CbmBitCountOfRun(0, m);
  }

  /** Going up the ladder strictly grows the BE share and strictly shrinks the LC share. */
  lemma LadderMonotonic(bitcnt: nat, k1: nat, k2: nat)
    requires k1 < k2 < LadderLength(bitcnt)
    ensures CbmBitCount(BeLadder(bitcnt)[k1]).value < CbmBitCount(BeLadder(bitcnt)[k2]).value
    ensures CbmBitCount(LcLadder(bitcnt)[k1]).value > CbmBitCount(LcLadder(bitcnt)[k2]).value
  {
    LadderBitCounts(bitcnt, k1);
    LadderBitCounts(bitcnt, k2);
    var lc1, lc2 := LcLadder(bitcnt)[k1], LcLadder(bitcnt)[k2];
    assert CbmBitCount(lc1) == Some(bitcnt - 2 - k1);
    assert CbmBitCount(lc2) == Some(bitcnt - 2 - k2);
  }

  /** Shape of the ladders: both have one entry per level, bitcnt / 2 levels in
      exclusive mode and bitcnt - 1 otherwise; a non-negative level_max indexes
      both; without exclusive mode it is the top level, and in exclusive mode
      the levels up to level_max are exactly those where BE gets no more ways
      than LC. */
  lemma LaddersShape(bitcnt: nat, exclusive: bool)
    ensures var l := BuildLadders(bitcnt, exclusive);
      && |l.be| == |l.lc| == (if exclusive then bitcnt / 2 else LadderLength(bitcnt))
      && (l.levelMax >= 0 ==> l.levelMax < |l.be|)
      && (!exclusive && bitcnt >= 1 ==> l.levelMax == |l.be| - 1)
      && (exclusive ==> forall k :: 0 <= k < |l.be| ==>
            (k <= l.levelMax <==> CbmBitCount(l.be[k]).value <= CbmBitCount(l.lc[k]).value))
  {
    var l := BuildLadders(bitcnt, exclusive);
    if exclusive {
      forall k | 0 <= k < |l.be|
        ensures k <= l.levelMax <==> CbmBitCount(l.be[k]).value <= CbmBitCount(l.lc[k]).value
      {
        LadderBitCounts(bitcnt, k);
      }
    }
  }
}

=== FILE: eris.dfy ===
/** The per-container sampling state of Eris. A Container keeps the handle
    table of its perf_event counters and "last observed" baselines for
    memory bandwidth, CPU usage and the perf counters; each poll turns a
    fresh reading into deltas against a baseline and moves the baseline on.

    The readings themselves (pqos monitoring values, perf_event reads, the
    first line of /proc/stat, the cgroup's cpuacct usage) are parameters,
    as are the outcomes of opening files and perf_event descriptors. */
module Eris {

  import opened Wrappers
  import opened Uint64
  import opened ProcStat
  import opened PerfScaling

  /** One slot of the CPU x event descriptor table. A slot that was never
      assigned keeps Go's zero value, descriptor 0. */
  datatype Slot = Unset | Failed | Open(fd: nat)

  /** The slot a finished open call leaves: the descriptor, or a failure. */
  function SlotOf(o: Option<nat>): Slot
  {
    if o.Some? then Open(o.value) else Failed
  }

  /** What pollPqos leaves in the monitor data: a failure, or the LLC
      occupancy in bytes and the two memory-bandwidth counters. */
  datatype PqosPoll = PollFailed | PollOk(llc: u64, mbmTotal: u64, mbmLocal: u64)

  /** Why newContainer gives up: the perf_event cgroup directory or the
      cpuacct usage file did not open. */
  datatype OpenError = CgroupOpenFailed | CpuUsageOpenFailed

  /** The remote-bandwidth estimate pollMemoryBandwidth appends: total minus
      local traffic, clamped at zero. */
  function RemoteEstimate(dTotal: u64, dLocal: u64): (r: u64)
    ensures r <= dTotal
    ensures r == 0 <==> dTotal <= dLocal
    ensures dTotal > dLocal ==> Add(dLocal, r) == dTotal
  {
    if dTotal > dLocal then dTotal - dLocal else 0
  }

  /** One pollCPUUsage step on the chosen {usage, system} baseline: the new
      baseline and the result. The first reading only seeds the baseline;
      later ones return the two deltas, which added back onto the old
      baseline give the new reading. */
  function CpuStep(last: Option<seq<u64>>, usage: u64, sys: u64): (r: (Option<seq<u64>>, Option<seq<u64>>))
    requires last.Some? ==> |last.value| == 2
    ensures r.0 == Some([usage, sys])
    ensures r.1.None? <==> last.None?
    ensures r.1.Some? ==>
      && |r.1.value| == 2
      && Add(last.value[0], r.1.value[0]) == usage && Add(last.value[1], r.1.value[1]) == sys
  {
    match last
    case None => (Some([usage, sys]), None)
    case Some(l) =>
      var ret := [Sub(usage, l[0]), Sub(sys, l[1])];
      assert l[0 := usage][1 := sys] == [usage, sys];
      (Some(l[0 := usage][1 := sys]), Some(ret))
  }

  /** Every row has numEvents slots, one row per CPU. */
  ghost predicate TableShape(fds: seq<seq<Slot>>, numCPU: nat, numEvents: nat)
  {
    |fds| == numCPU && forall i :: 0 <= i < numCPU ==> |fds[i]| == numEvents
  }

  /** The table newContainer builds from the open outcomes: the leader slot
      of CPU i holds what opening the leader gave; its followers hold what
      opening them gave when the leader opened, and stay unassigned when it
      did not. */
  ghost predicate IsHandleTable(fds: seq<seq<Slot>>, numCPU: nat, numEvents: nat,
                                leaderOpen: seq<Option<nat>>, followerOpen: seq<seq<Option<nat>>>)
    requires |leaderOpen| == |followerOpen| == numCPU
    requires forall i :: 0 <= i < numCPU ==> |followerOpen[i]| == numEvents
  {
    && TableShape(fds, numCPU, numEvents)
    && (forall i :: 0 <= i < numCPU && 0 < numEvents ==> fds[i][0] == SlotOf(leaderOpen[i]))
    && (forall i, j :: 0 <= i < numCPU && 1 <= j < numEvents ==>
          fds[i][j] == if leaderOpen[i].Some? then SlotOf(followerOpen[i][j]) else Unset)
  }

  /** Row-major order of (cpu, event) pairs. */
  predicate Before(a: (nat, nat), b: (nat, nat))
  {
    a.0 < b.0 || (a.0 == b.0 && a.1 < b.1)
  }

  /** The fill loop of newContainer. attempts lists the open calls made, in
      order: the leader of every CPU, and the followers of exactly those CPUs
      whose leader opened; a failure on one CPU does not stop the others. */
  method FillHandleTable(numCPU: nat, numEvents: nat, leaderOpen: seq<Option<nat>>,
                         followerOpen: seq<seq<Option<nat>>>)
    returns (fds: seq<seq<Slot>>, attempts: seq<(nat, nat)>)
    requires numEvents >= 1
    requires |leaderOpen| == |followerOpen| == numCPU
    requires forall i :: 0 <= i < numCPU ==> |followerOpen[i]| == numEvents
    ensures IsHandleTable(fds, numCPU, numEvents, leaderOpen, followerOpen)
    ensures forall a :: a in attempts <==>
      a.0 < numCPU && a.1 < numEvents && (a.1 == 0 || leaderOpen[a.0].Some?)
    ensures forall p, q :: 0 <= p < q < |attempts| ==> Before(attempts[p], attempts[q])
  {
    fds := [];
    attempts := [];
    var i := 0;
    while i < numCPU
      invariant 0 <= i <= numCPU
      invariant |fds| == i
      invariant forall c :: 0 <= c < i ==> |fds[c]| == numEvents
      invariant forall c :: 0 <= c < i ==> fds[c][0] == SlotOf(leaderOpen[c])
      invariant forall c, j :: 0 <= c < i && 1 <= j < numEvents ==>
        fds[c][j] == if leaderOpen[c].Some? then SlotOf(followerOpen[c][j]) else Unset
      invariant forall a :: a in attempts <==> a.0 < i && a.1 < numEvents && (a.1 == 0 || leaderOpen[a.0].Some?)
      invariant forall p, q :: 0 <= p < q < |attempts| ==> Before(attempts[p], attempts[q])
    {
      var row := seq(numEvents, _ => Unset);
      row := row[0 := SlotOf(leaderOpen[i])];
      attempts := attempts + [(i, 0)];
      if leaderOpen[i].Some? {
        var j := 1;
        while j < numEvents
          invariant 1 <= j <= numEvents
          invariant |row| == numEvents && row[0] == SlotOf(leaderOpen[i])
          invariant forall k :: 1 <= k < j ==> row[k] == SlotOf(followerOpen[i][k])
          invariant forall k :: j <= k < numEvents ==> row[k] == Unset
          invariant forall a :: a in attempts <==>
            (a.0 < i && a.1 < numEvents && (a.1 == 0 || leaderOpen[a.0].Some?)) || (a.0 == i && a.1 < j)
          invariant forall p, q :: 0 <= p < q < |attempts| ==> Before(attempts[p], attempts[q])
          invariant |attempts| > 0 && attempts[|attempts| - 1] == (i, j - 1)
        {
          row := row[j := SlotOf(followerOpen[i][j])];
          attempts := attempts + [(i, j)];
          j := j + 1;
        }
      }
      fds := fds + [row];
      i := i + 1;
    }
  }

  /** The slots of a table row after row. */
  function Flatten(rows: seq<seq<Slot>>): seq<Slot>
  {
    if |rows| == 0 then [] else Flatten(rows[..|rows| - 1]) + rows[|rows| - 1]
  }

  /** In a table of rows of n slots, slot (i, j) sits at i * n + j of the
      flattened table, so a walk over it visits every slot once, row by row. */
  lemma {:induction false} FlattenIndex(rows: seq<seq<Slot>>, n: nat, i: nat, j: nat)
    requires forall r :: 0 <= r < |rows| ==> |rows[r]| == n
    requires i < |rows| && j < n
    ensures |Flatten(rows)| == |rows| * n
    ensures var k := i * n + j; k < |Flatten(rows)| && Flatten(rows)[k] == rows[i][j]
  {
    FlattenLength(rows, n);
    var front := rows[..|rows| - 1];
    FlattenLength(front, n);
    if i < |rows| - 1 {
      FlattenIndex(front, n, i, j);
      assert i * n + j < |front| * n by {
        MulLe(i + 1, |front|, n);
      }
    } else {
      assert i * n + j == |front| * n + j;
    }
  }

  lemma {:induction false} FlattenLength(rows: seq<seq<Slot>>, n: nat)
    requires forall r :: 0 <= r < |rows| ==> |rows[r]| == n
    ensures |Flatten(rows)| == |rows| * n
  {
    if |rows| > 0 {
      FlattenLength(rows[..|rows| - 1], n);
    }
  }

  /** The descriptors of the slots that hold an open counter, in order. */
  function OpenFds(slots: seq<Slot>): (r: seq<nat>)
    ensures |r| <= |slots|
  {
    if |slots| == 0 then []
    else OpenFds(slots[..|slots| - 1]) + (if slots[|slots| - 1].Open? then [slots[|slots| - 1].fd] else [])
  }

  /** A descriptor is listed exactly when some slot holds it open. */
  lemma {:induction false} OpenFdsExact(slots: seq<Slot>, fd: nat)
    ensures fd in OpenFds(slots) <==> Open(fd) in slots
  {
    if |slots| > 0 {
      var front := slots[..|slots| - 1];
      OpenFdsExact(front, fd);
      assert slots == front + [slots[|slots| - 1]];
    }
  }

  /** The table is rectangular; a leader slot is always assigned; the
      followers of a CPU are unassigned exactly when its leader did not open. */
  ghost predicate WellFormedTable(fds: seq<seq<Slot>>, numCPU: nat, numEvents: nat)
  {
    && TableShape(fds, numCPU, numEvents)
    && (forall i :: 0 <= i < numCPU && 0 < numEvents ==> fds[i][0] != Unset)
    && (forall i, j :: 0 <= i < numCPU && 1 <= j < numEvents ==> (fds[i][j] == Unset <==> !fds[i][0].Open?))
  }

  /** Whatever the open outcomes, newContainer's table is well formed. */
  lemma HandleTableWellFormed(fds: seq<seq<Slot>>, numCPU: nat, numEvents: nat,
                              leaderOpen: seq<Option<nat>>, followerOpen: seq<seq<Option<nat>>>)
    requires |leaderOpen| == |followerOpen| == numCPU
    requires forall i :: 0 <= i < numCPU ==> |followerOpen[i]| == numEvents
    requires IsHandleTable(fds, numCPU, numEvents, leaderOpen, followerOpen)
    ensures WellFormedTable(fds, numCPU, numEvents)
  {
    forall i, j | 0 <= i < numCPU && 1 <= j < numEvents
      ensures fds[i][j] == Unset <==> !fds[i][0].Open?
    {
      assert fds[i][0] == SlotOf(leaderOpen[i]);
    }
  }

  /** A CPU whose leader failed leaves its follower slots unassigned, and
      they are part of the table's slots. */
  lemma FailedLeaderLeavesUnset(fds: seq<seq<Slot>>, numCPU: nat, numEvents: nat, i: nat)
    requires WellFormedTable(fds, numCPU, numEvents)
    requires numEvents >= 2 && i < numCPU && fds[i][0].Failed?
    ensures Unset in Flatten(fds)
  {
    FlattenIndex(fds, numEvents, i, 1);
  }

  /** The double loop start and finalize share: for i < numCPU, for
      j < numEvents, visit slot (i, j); the slots in the order visited. */
  method WalkSlots(fds: seq<seq<Slot>>, numCPU: nat, numEvents: nat) returns (visited: seq<Slot>)
    requires TableShape(fds, numCPU, numEvents)
    ensures visited == Flatten(fds)
  {
    visited := [];
    var i := 0;
    while i < numCPU
      invariant 0 <= i <= numCPU
      invariant visited == Flatten(fds[..i])
    {
      var j := 0;
      while j < numEvents
        invariant 0 <= j <= numEvents
        invariant visited == Flatten(fds[..i]) + fds[i][..j]
      {
        visited := visited + [fds[i][j]];
        j := j + 1;
      }
      assert fds[..i + 1][..i] == fds[..i];
      assert fds[i][..j] == fds[i];
      i := i + 1;
    }
    assert fds[..i] == fds;
  }

  class Container {
    const id: string
    const name: string
    /** numCPU and len(peCounters), package-level in Eris. */
    const numCPU: nat
    const numEvents: nat
    const fds: seq<seq<Slot>>
    /** The pids handed to pqos, when listTaskPid succeeded. */
    const pqosPids: Option<set<int>>
    /** newPqosGroup created a monitoring group. */
    const pqosGroup: bool
    const isLatencyCritical: bool
    const isBestEffort: bool
    var perfLastValue: Option<seq<seq<u64>>>
    var perfLastEnabled: seq<u64>
    var perfLastRunning: seq<u64>
    /** The {cpu usage, system usage} baselines; None is Go's nil slice. */
    var lastCPUUsage: Option<seq<u64>>
    var lastCPUUsage1: Option<seq<u64>>
    var cacheOccupancySum: u64
    var cacheOccupancyCount: u64
    var pqosLastValue: Option<seq<u64>>
    var monitorStarted: bool

    ghost predicate Valid()
      reads this
    {
      && WellFormedTable(fds, numCPU, numEvents)
      && (pqosLastValue.Some? ==> |pqosLastValue.value| == 2)
      && (lastCPUUsage.Some? ==> |lastCPUUsage.value| == 2)
      && (lastCPUUsage1.Some? ==> |lastCPUUsage1.value| == 2)
      && (perfLastValue.Some? ==>
            && |perfLastValue.value| == |perfLastEnabled| == |perfLastRunning| == numCPU
            && forall i :: 0 <= i < numCPU ==> |perfLastValue.value[i]| == numEvents)
    }

    constructor(id: string, name: string, numCPU: nat, numEvents: nat, fds: seq<seq<Slot>>,
                pqosPids: Option<set<int>>, pqosGroup: bool,
                latencyCritical: set<string>, bestEffort: set<string>)
      requires WellFormedTable(fds, numCPU, numEvents)
      ensures Valid()
      ensures this.id == id && this.name == name && this.numCPU == numCPU && this.numEvents == numEvents
      ensures this.fds == fds && this.pqosPids == pqosPids && this.pqosGroup == pqosGroup
      ensures isLatencyCritical == (name in latencyCritical) && isBestEffort == (name in bestEffort)
      ensures perfLastValue.None? && lastCPUUsage.None? && lastCPUUsage1.None? && pqosLastValue.None?
      ensures !monitorStarted
    {
      this.id := id;
      this.name := name;
      this.numCPU := numCPU;
      this.numEvents := numEvents;
      this.fds := fds;
      this.pqosPids := pqosPids;
      this.pqosGroup := pqosGroup;
      isLatencyCritical := name in latencyCritical;
      isBestEffort := name in bestEffort;
      perfLastValue := None;
      perfLastEnabled, perfLastRunning := [], [];
      lastCPUUsage, lastCPUUsage1 := None, None;
      cacheOccupancySum, cacheOccupancyCount := 0, 0;
      pqosLastValue := None;
      monitorStarted := false;
    }

    /** pollCacheOccupancy: an error when the pqos poll fails, else the LLC
        occupancy in KiB, rounded down. */
    method PollCacheOccupancy(poll: PqosPoll) returns (r: Result<u64, string>)
      ensures r.Err? <==> poll.PollFailed?
      ensures r.Ok? ==> r.value * 1024 <= poll.llc < (r.value + 1) * 1024
    {
      if poll.PollFailed? {
        return Err("fail to poll cache occupancy");
      }
      return Ok(poll.llc / 1024);
    }

    /** pollMemoryBandwidth: the first successful poll seeds the
        [mbm_total, mbm_local] baseline and returns nothing; later ones
        return the two wrapping deltas and the remote estimate, and move the
        baseline on. A failed poll changes nothing. */
    method PollMemoryBandwidth(poll: PqosPoll) returns (ret: Option<seq<u64>>)
      requires Valid()
      modifies this`pqosLastValue
      ensures Valid()
      ensures poll.PollFailed? ==> ret.None? && pqosLastValue == old(pqosLastValue)
      ensures poll.PollOk? ==> pqosLastValue == Some([poll.mbmTotal, poll.mbmLocal])
      ensures poll.PollOk? && old(pqosLastValue).None? ==> ret.None?
      ensures poll.PollOk? && old(pqosLastValue).Some? ==>
        && ret.Some? && |ret.value| == 3
        && Add(old(pqosLastValue).value[0], ret.value[0]) == poll.mbmTotal
        && Add(old(pqosLastValue).value[1], ret.value[1]) == poll.mbmLocal
        && ret.value[2] == RemoteEstimate(ret.value[0], ret.value[1])
    {
      if poll.PollFailed? {
        return None;
      }
      var mbmValue := [poll.mbmTotal, poll.mbmLocal];
      if pqosLastValue.None? {
        pqosLastValue := Some(mbmValue);
        return None;
      }
      var last := pqosLastValue.value;
      var r: seq<u64> := [];
      var i := 0;
      while i < |last|
        invariant 0 <= i <= |last| && |r| == i
        invariant forall k :: 0 <= k < i ==> r[k] == Sub(mbmValue[k], last[k])
      {
        r := r + [Sub(mbmValue[i], last[i])];
        i := i + 1;
      }
      if r[0] > r[1] {
        r := r + [r[0] - r[1]];
      } else {
        r := r + [0];
      }
      pqosLastValue := Some(mbmValue);
      return Some(r);
    }

    /** pollPerf: with a baseline, every event's total is the sum over CPUs
        of the scaled deltas, reduced modulo 2^64 as the uint64 accumulator
        leaves it; without one, nothing. Every call replaces the three
        baselines with the new reads. */
    method PollPerf(newData: seq<seq<u64>>, enabled: seq<u64>, running: seq<u64>)
      returns (res: Option<seq<u64>>)
      requires Valid()
      requires |newData| == |enabled| == |running| == numCPU
      requires forall i :: 0 <= i < numCPU ==> |newData[i]| == numEvents
      modifies this`perfLastValue, this`perfLastEnabled, this`perfLastRunning
      ensures Valid()
      ensures perfLastValue == Some(newData) && perfLastEnabled == enabled && perfLastRunning == running
      ensures res.None? <==> old(perfLastValue).None?
      ensures res.Some? ==> |res.value| == numEvents && forall j :: 0 <= j < numEvents ==>
        res.value[j] == EventSum(old(perfLastValue).value, old(perfLastEnabled), old(perfLastRunning),
                                 newData, enabled, running, numEvents, j, numCPU) % TWO_64
    {
      res := None;
      if perfLastValue.Some? {
        var totals := PerfTotals(perfLastValue.value, perfLastEnabled, perfLastRunning, newData, enabled, running, numEvents);
        res := Some(totals);
      }
      perfLastValue := Some(newData);
      perfLastEnabled := enabled;
      perfLastRunning := running;
    }

    /** pollCPUUsage: isMetrics picks lastCPUUsage, otherwise lastCPUUsage1;
        that baseline takes one CpuStep with the cgroup usage and the system
        figure of the stat line, and the other baseline is left alone. */
    method PollCPUUsage(isMetrics: bool, statLine: string, usage: u64) returns (ret: Option<seq<u64>>)
      requires Valid()
      requires |statLine| > 0 && statLine[|statLine| - 1] == '\n'
      modifies this`lastCPUUsage, this`lastCPUUsage1
      ensures Valid()
      ensures var sys := (StatSum(StatFields(statLine)) * TICK_SCALE) % TWO_64;
        if isMetrics then
          (lastCPUUsage, ret) == CpuStep(old(lastCPUUsage), usage, sys) && lastCPUUsage1 == old(lastCPUUsage1)
        else
          (lastCPUUsage1, ret) == CpuStep(old(lastCPUUsage1), usage, sys) && lastCPUUsage == old(lastCPUUsage)
    {
      var sys := SystemTicks(statLine);
      var step;
      if isMetrics {
        step := CpuStep(lastCPUUsage, usage, sys);
        lastCPUUsage := step.0;
      } else {
        step := CpuStep(lastCPUUsage1, usage, sys);
        lastCPUUsage1 := step.0;
      }
      ret := step.1;
    }

    /** start: startPerf on every slot of the table, row by row. */
    method Start() returns (started: seq<Slot>)
      requires Valid()
      ensures started == Flatten(fds)
    {
      started := WalkSlots(fds, numCPU, numEvents);
    }

    /** finalize as written: Close on every slot, row by row. An unassigned
        follower slot of a CPU whose leader failed still holds 0, so Close(0)
        is issued on the process's standard input. */
    method FinalizeAsWritten() returns (closed: seq<Slot>)
      requires Valid()
      ensures closed == Flatten(fds)
      ensures numEvents >= 2 && (exists i :: 0 <= i < numCPU && fds[i][0].Failed?) ==> Unset in closed
    {
      closed := WalkSlots(fds, numCPU, numEvents);
      if numEvents >= 2 && exists i :: 0 <= i < numCPU && fds[i][0].Failed? {
        var i :| 0 <= i < numCPU && fds[i][0].Failed?;
        FailedLeaderLeavesUnset(fds, numCPU, numEvents, i);
      }
    }

    /** finalize, closing only descriptors that were opened: each open
        descriptor once, in table order, and nothing else. */
    method Finalize() returns (closed: seq<nat>)
      requires Valid()
      ensures closed == OpenFds(Flatten(fds))
      ensures forall fd :: fd in closed <==> Open(fd) in Flatten(fds)
    {
      var slots := WalkSlots(fds, numCPU, numEvents);
      closed := [];
      var k := 0;
      while k < |slots|
        invariant 0 <= k <= |slots|
        invariant closed == OpenFds(slots[..k])
      {
        assert slots[..k + 1][..k] == slots[..k];
        if slots[k].Open? {
          closed := closed + [slots[k].fd];
        }
        k := k + 1;
      }
      assert slots[..k] == slots;
      forall fd | true ensures fd in closed <==> Open(fd) in slots {
        OpenFdsExact(slots, fd);
      }
    }
  }

  /** newContainer: open the cgroup directory and the cpuacct usage file
      (either failing is fatal), register the pids with pqos when they were
      listed, fill the descriptor table and classify the container by name. */
  method NewContainer(id: string, name: string, cgroupOpened: bool, cpuUsageOpened: bool,
                      pids: Option<set<int>>, pqosGroupCreated: bool,
                      numCPU: nat, numEvents: nat,
                      leaderOpen: seq<Option<nat>>, followerOpen: seq<seq<Option<nat>>>,
                      latencyCritical: set<string>, bestEffort: set<string>)
    returns (r: Result<Container, OpenError>)
    requires numEvents >= 1
    requires |leaderOpen| == |followerOpen| == numCPU
    requires forall i :: 0 <= i < numCPU ==> |followerOpen[i]| == numEvents
    ensures !cgroupOpened ==> r == Err(CgroupOpenFailed)
    ensures cgroupOpened && !cpuUsageOpened ==> r == Err(CpuUsageOpenFailed)
    ensures cgroupOpened && cpuUsageOpened ==> r.Ok? && fresh(r.value)
    ensures r.Ok? ==> var c := r.value;
      && c.Valid() && c.id == id && c.name == name
      && IsHandleTable(c.fds, numCPU, numEvents, leaderOpen, followerOpen)
      && c.pqosPids == pids && c.pqosGroup == (pids.Some? && pqosGroupCreated)
      && c.isLatencyCritical == (name in latencyCritical) && c.isBestEffort == (name in bestEffort)
      && c.perfLastValue.None? && c.lastCPUUsage.None? && c.lastCPUUsage1.None? && c.pqosLastValue.None?
  {
    if !cgroupOpened {
      return Err(CgroupOpenFailed);
    }
    if !cpuUsageOpened {
      return Err(CpuUsageOpenFailed);
    }
    var fds, _ := FillHandleTable(numCPU, numEvents, leaderOpen, followerOpen);
    HandleTableWellFormed(fds, numCPU, numEvents, leaderOpen, followerOpen);
    var c := new Container(id, name, numCPU, numEvents, fds, pids, pids.Some? && pqosGroupCreated,
                           latencyCritical, bestEffort);
    return Ok(c);
  }
}

=== FILE: llcoccup.dfy ===
/** The LlcOccup resource of prm: it keeps the BE and LC capacity-bitmask
    ladders and, for a quota level, writes an RDT allocation
    "L3:0=<mask>;1=<mask>;..." for every best-effort and latency-critical
    container into the nested allocation dictionary new_allocs, skipping
    containers whose current allocation already has that L3 string. */
module LlcOccup {

  import opened Wrappers
  import opened Numerals
  import opened CbmLadder
  import Text

  /** The allocation kinds of the owca allocator; only RDT is used here. */
  datatype AllocationType = Rdt | OtherType(name: string)

  /** owca's RDTAllocation, reduced to the two fields this resource sets. */
  datatype RdtAllocation = RdtAllocation(name: string, l3: string)

  datatype Allocation = RdtAlloc(rdt: RdtAllocation) | OtherAlloc(value: real)

  /** task id -> allocation type -> allocation, as the dictionaries
      cur_allocs and new_allocs. */
  type TasksAllocations = map<string, map<AllocationType, Allocation>>

  /** The allocator keeps an RDTAllocation under the RDT key. */
  predicate WellTyped(m: TasksAllocations)
  {
    forall t :: t in m ==> (Rdt in m[t] ==> m[t][Rdt].RdtAlloc?)
  }

  const BE_GROUP := "BE_Group"
  const LC_GROUP := "LC_Group"

  /** cur_allocs already gives task taskId the L3 string alloc. */
  predicate AlreadyAllocated(cur: TasksAllocations, taskId: string, alloc: string)
    requires WellTyped(cur)
  {
    taskId in cur && Rdt in cur[taskId] && cur[taskId][Rdt].rdt.l3 == alloc
  }

  /** After an allocation request, task taskId either already had alloc or
      new_allocs now holds the RDT allocation (name, alloc) for it. */
  predicate Allocated(cur: TasksAllocations, allocs: TasksAllocations, taskId: string, name: string, alloc: string)
    requires WellTyped(cur)
  {
    || AlreadyAllocated(cur, taskId, alloc)
    || (taskId in allocs && Rdt in allocs[taskId] && allocs[taskId][Rdt] == RdtAlloc(RdtAllocation(name, alloc)))
  }

  /** _set_alloc on values: new_allocs after the call. */
  function SetAllocSpec(cur: TasksAllocations, allocs: TasksAllocations, taskId: string, name: string, alloc: string)
    : TasksAllocations
    requires WellTyped(cur)
  {
    if AlreadyAllocated(cur, taskId, alloc) then allocs
    else
      var taskAllocs := if taskId in allocs then allocs[taskId] else map[];
      allocs[taskId := taskAllocs[Rdt := RdtAlloc(RdtAllocation(name, alloc))]]
  }

  /** A request leaves new_allocs alone when cur_allocs already has the L3
      string; otherwise it sets that task's RDT entry to (name, alloc), adding
      that task if it was missing, and keeps that task's other allocation types
      and every other task as they were. */
  lemma SetAllocEffect(cur: TasksAllocations, allocs: TasksAllocations, taskId: string, name: string, alloc: string)
    requires WellTyped(cur)
    ensures var r := SetAllocSpec(cur, allocs, taskId, name, alloc);
      && (AlreadyAllocated(cur, taskId, alloc) ==> r == allocs)
      && (!AlreadyAllocated(cur, taskId, alloc) ==>
            taskId in r && Rdt in r[taskId] && r[taskId][Rdt] == RdtAlloc(RdtAllocation(name, alloc)))
      && Allocated(cur, r, taskId, name, alloc)
      && r.Keys == allocs.Keys + (if AlreadyAllocated(cur, taskId, alloc) then {} else {taskId})
      && (forall t :: t in allocs && t != taskId ==> r[t] == allocs[t])
      && (taskId in allocs ==> forall ty :: ty in allocs[taskId] && ty != Rdt ==>
            ty in r[taskId] && r[taskId][ty] == allocs[taskId][ty])
      && (taskId in r ==> r[taskId].Keys - {Rdt} == (if taskId in allocs then allocs[taskId].Keys else {}) - {Rdt})
  {
  }

  /** Asking twice for the same allocation changes nothing the second time. */
  lemma SetAllocIdempotent(cur: TasksAllocations, allocs: TasksAllocations, taskId: string, name: string, alloc: string)
    requires WellTyped(cur)
    ensures var once := SetAllocSpec(cur, allocs, taskId, name, alloc);
      SetAllocSpec(cur, once, taskId, name, alloc) == once
  {
    var once := SetAllocSpec(cur, allocs, taskId, name, alloc);
    SetAllocEffect(cur, allocs, taskId, name, alloc);
    if !AlreadyAllocated(cur, taskId, alloc) {
      var ta := once[taskId];
      assert ta[Rdt := RdtAlloc(RdtAllocation(name, alloc))] == ta;
      assert once[taskId := ta] == once;
    }
  }

  /** _set_alloc for each id in turn, all with the same name and L3 string. */
  function ApplyAll(cur: TasksAllocations, allocs: TasksAllocations, ids: seq<string>, name: string, alloc: string)
    : TasksAllocations
    requires WellTyped(cur)
  {
    if |ids| == 0 then allocs
    else SetAllocSpec(cur, ApplyAll(cur, allocs, ids[..|ids| - 1], name, alloc), ids[|ids| - 1], name, alloc)
  }

  /** One more id extends the fold by one request. */
  lemma ApplyAllSnoc(cur: TasksAllocations, allocs: TasksAllocations, ids: seq<string>, i: nat, name: string, alloc: string)
    requires WellTyped(cur)
    requires i < |ids|
    ensures ApplyAll(cur, allocs, ids[..i + 1], name, alloc)
      == SetAllocSpec(cur, ApplyAll(cur, allocs, ids[..i], name, alloc), ids[i], name, alloc)
  {
    assert ids[..i + 1][..i] == ids[..i];
  }

  /** Every listed id ends up allocated: one whose current allocation lacks
      alloc now has (name, alloc) as its RDT entry in new_allocs. A task that
      is not listed, or whose current allocation already has alloc, keeps
      exactly what it had, and every task keeps its other allocation types. */
  lemma {:induction false} ApplyAllEffect(cur: TasksAllocations, allocs: TasksAllocations, ids: seq<string>, name: string, alloc: string)
    requires WellTyped(cur)
    ensures var r := ApplyAll(cur, allocs, ids, name, alloc);
      && (forall k :: 0 <= k < |ids| ==> Allocated(cur, r, ids[k], name, alloc))
      && (forall t :: t in ids && !AlreadyAllocated(cur, t, alloc) ==>
            t in r && Rdt in r[t] && r[t][Rdt] == RdtAlloc(RdtAllocation(name, alloc)))
      && (forall t :: t !in ids || AlreadyAllocated(cur, t, alloc) ==> (t in r <==> t in allocs))
      && (forall t :: (t !in ids || AlreadyAllocated(cur, t, alloc)) && t in allocs ==> r[t] == allocs[t])
      && (forall t, ty :: t in allocs && ty in allocs[t] && ty != Rdt ==>
            t in r && ty in r[t] && r[t][ty] == allocs[t][ty])
  {
    if |ids| > 0 {
      var front := ids[..|ids| - 1];
      var last := ids[|ids| - 1];
      var mid := ApplyAll(cur, allocs, front, name, alloc);
      ApplyAllEffect(cur, allocs, front, name, alloc);
      var r := SetAllocSpec(cur, mid, last, name, alloc);
      SetAllocEffect(cur, mid, last, name, alloc);
      assert r == ApplyAll(cur, allocs, ids, name, alloc);
      forall k | 0 <= k < |ids| ensures Allocated(cur, r, ids[k], name, alloc) {
        if k < |ids| - 1 {
          assert ids[k] == front[k];
          if ids[k] != last && ids[k] in mid {
            assert r[ids[k]] == mid[ids[k]];
          }
        }
      }
      assert ids == front + [last];
    }
  }

  /** Python's s[i]: a negative index counts from the end; None where
      Python raises IndexError. */
  function PyIndex(s: seq<string>, i: int): (r: Option<string>)
    ensures r.Some? <==> -|s| <= i < |s|
    ensures 0 <= i < |s| ==> r == Some(s[i])
  {
    if 0 <= i < |s| then Some(s[i])
    else if -|s| <= i < 0 then Some(s[|s| + i])
    else None
  }

  /** "L3:" followed by "<k>=<mask>" for every socket k, joined by ';'. */
  function L3Schema(mask: string, nsocks: nat): string
  {
    "L3:" + Text.Join(seq(nsocks, k requires 0 <= k => Format(k, 10) + "=" + mask), ';')
  }

  /** The string _budgeting computes from bmp[quota_level]; the mask is looked
      up once per socket, so with no sockets it is never looked up. */
  function GroupSchema(bmp: seq<string>, level: int, nsocks: nat): (r: Option<string>)
    ensures r.None? <==> nsocks > 0 && PyIndex(bmp, level).None?
  {
    if nsocks == 0 then Some(L3Schema("", 0))
    else match PyIndex(bmp, level)
      case None => None
      case Some(mask) => Some(L3Schema(mask, nsocks))
  }

  /** For at least one socket and a mask without ';' or '=', the schema splits
      back into one "<k>=<mask>" segment per socket, in socket order, and
      each segment's number reads back as k. */
  lemma L3SchemaSegments(mask: string, nsocks: nat)
    requires nsocks >= 1
    requires ';' !in mask
    ensures var s := L3Schema(mask, nsocks);
      && s[..3] == "L3:"
      && var segs := Text.Split(s[3..], ';');
      && |segs| == nsocks
      && forall k :: 0 <= k < nsocks ==> segs[k] == Format(k, 10) + "=" + mask && ValueIn(Format(k, 10), 10) == k
  {
    var parts := seq(nsocks, k requires 0 <= k => Format(k, 10) + "=" + mask);
    forall k | 0 <= k < nsocks ensures ';' !in parts[k] && ValueIn(Format(k, 10), 10) == k {
      NumeralHasNo(k, 10, ';');
      FormatRoundTrip(k, 10);
    }
    Text.SplitJoin(parts, ';');
    var s := L3Schema(mask, nsocks);
    assert s[3..] == Text.Join(parts, ';');
  }

  /** The schema budgeting writes for a level of the ladders update_allocs
      built: the ladder entry is hex() of the level's mask, and the schema
      splits back into one "<k>=<mask>" segment per socket. */
  lemma LadderSchemaSegments(bitcnt: nat, exclusive: bool, isBe: bool, level: nat, nsocks: nat)
    requires level < |BuildLadders(bitcnt, exclusive).be|
    requires nsocks >= 1
    ensures var l := BuildLadders(bitcnt, exclusive);
      var bmp := if isBe then l.be else l.lc;
      && level < |bmp|
      && GroupSchema(bmp, level, nsocks) == Some(L3Schema(bmp[level], nsocks))
      && ParseHex(bmp[level]) == Some(if isBe then BeMask(bitcnt, level + 1) else LcMask(bitcnt, level + 1))
      && var segs := Text.Split(L3Schema(bmp[level], nsocks)[3..], ';');
      && |segs| == nsocks
      && forall k :: 0 <= k < nsocks ==> segs[k] == Format(k, 10) + "=" + bmp[level]
  {
    var l := BuildLadders(bitcnt, exclusive);
    LaddersShape(bitcnt, exclusive);
    var bmp := if isBe then l.be else l.lc;
    var full := if isBe then BeLadder(bitcnt) else LcLadder(bitcnt);
    assert level < |full| && bmp[level] == full[level];
    var m := if isBe then BeMask(bitcnt, level + 1) else LcMask(bitcnt, level + 1);
    assert full[level] == Hex(m);
    LadderEntries(bitcnt, level);
    HexHasNo(m, ';');
    L3SchemaSegments(bmp[level], nsocks);
  }

  /** One `if ids:` block of budgeting: _budgeting for each id, then the log
      line, which looks bmp[quota_level] up again. The flag is false where
      Python raises IndexError; the map is new_allocs at that point. */
  function BudgetGroup(cur: TasksAllocations, allocs: TasksAllocations, ids: seq<string>, name: string,
                       bmp: seq<string>, level: int, nsocks: nat): (r: (bool, TasksAllocations))
    requires WellTyped(cur)
  {
    if |ids| == 0 then (true, allocs)
    else match GroupSchema(bmp, level, nsocks)
      case None => (false, allocs)
      case Some(l3) => (PyIndex(bmp, level).Some?, ApplyAll(cur, allocs, ids, name, l3))
  }

  /** budgeting(bes, lcs) on values: the BE block, then, if it did not raise,
      the LC block. */
  function BudgetingSpec(cur: TasksAllocations, allocs: TasksAllocations, bes: seq<string>, lcs: seq<string>,
                         beBmp: seq<string>, lcBmp: seq<string>, level: int, nsocks: nat): (r: (bool, TasksAllocations))
    requires WellTyped(cur)
  {
    var be := BudgetGroup(cur, allocs, bes, BE_GROUP, beBmp, level, nsocks);
    if !be.0 then be
    else BudgetGroup(cur, be.1, lcs, LC_GROUP, lcBmp, level, nsocks)
  }

  /** When quota_level indexes both ladders, budgeting completes. An LC
      container whose current allocation lacks the LC schema gets it in
      new_allocs. A BE container whose current allocation lacks the BE schema
      gets it, unless it is also listed as LC and then gets the LC schema.
      The LC block compares against cur_allocs, not new_allocs, so a container
      listed in both groups whose current allocation already has the LC
      schema keeps the BE schema the BE block wrote. A task neither block
      has to change keeps exactly what it had, and every task keeps its
      allocation types other than RDT. */
  lemma BudgetingEffect(cur: TasksAllocations, allocs: TasksAllocations, bes: seq<string>, lcs: seq<string>,
                        beBmp: seq<string>, lcBmp: seq<string>, level: int, nsocks: nat)
    requires WellTyped(cur)
    requires PyIndex(beBmp, level).Some? && PyIndex(lcBmp, level).Some?
    ensures var r := BudgetingSpec(cur, allocs, bes, lcs, beBmp, lcBmp, level, nsocks);
      var beL3 := GroupSchema(beBmp, level, nsocks).value;
      var lcL3 := GroupSchema(lcBmp, level, nsocks).value;
      && r.0
      && (forall c :: c in lcs ==> Allocated(cur, r.1, c, LC_GROUP, lcL3))
      && (forall c :: c in bes && c !in lcs ==> Allocated(cur, r.1, c, BE_GROUP, beL3))
      && (forall c :: c in lcs && !AlreadyAllocated(cur, c, lcL3) ==>
            c in r.1 && Rdt in r.1[c] && r.1[c][Rdt] == RdtAlloc(RdtAllocation(LC_GROUP, lcL3)))
      && (forall c :: c in bes && !AlreadyAllocated(cur, c, beL3) && (c in lcs ==> AlreadyAllocated(cur, c, lcL3)) ==>
            c in r.1 && Rdt in r.1[c] && r.1[c][Rdt] == RdtAlloc(RdtAllocation(BE_GROUP, beL3)))
      && (forall t :: (t in bes ==> AlreadyAllocated(cur, t, beL3)) && (t in lcs ==> AlreadyAllocated(cur, t, lcL3)) ==>
            (t in r.1 <==> t in allocs))
      && (forall t :: (t in bes ==> AlreadyAllocated(cur, t, beL3)) && (t in lcs ==> AlreadyAllocated(cur, t, lcL3)) && t in allocs ==>
            r.1[t] == allocs[t])
      && (forall t, ty :: t in allocs && ty in allocs[t] && ty != Rdt ==>
            t in r.1 && ty in r.1[t] && r.1[t][ty] == allocs[t][ty])
  {
    var beL3 := GroupSchema(beBmp, level, nsocks).value;
    var lcL3 := GroupSchema(lcBmp, level, nsocks).value;
    var mid := ApplyAll(cur, allocs, bes, BE_GROUP, beL3);
    var r := ApplyAll(cur, mid, lcs, LC_GROUP, lcL3);
    ApplyAllEffect(cur, allocs, bes, BE_GROUP, beL3);
    ApplyAllEffect(cur, mid, lcs, LC_GROUP, lcL3);
    assert BudgetGroup(cur, allocs, bes, BE_GROUP, beBmp, level, nsocks) == (true, mid);
    assert BudgetGroup(cur, mid, lcs, LC_GROUP, lcBmp, level, nsocks) == (true, r);
    forall c | c in lcs ensures Allocated(cur, r, c, LC_GROUP, lcL3) {
      var k :| 0 <= k < |lcs| && lcs[k] == c;
    }
    forall c | c in bes && c !in lcs ensures Allocated(cur, r, c, BE_GROUP, beL3) {
      var k :| 0 <= k < |bes| && bes[k] == c;
      assert Allocated(cur, mid, c, BE_GROUP, beL3);
    }
  }

  /** The order dependence on a concrete input: container c is listed in both
      groups and its current allocation already has the LC schema, so the
      request it ends with in new_allocs is the BE schema. */
  lemma BudgetingBothListsKeepsBe(c: string, beBmp: seq<string>, lcBmp: seq<string>, level: int, nsocks: nat)
    requires PyIndex(beBmp, level).Some? && PyIndex(lcBmp, level).Some?
    requires GroupSchema(beBmp, level, nsocks) != GroupSchema(lcBmp, level, nsocks)
    ensures var lcL3 := GroupSchema(lcBmp, level, nsocks).value;
      var cur := map[c := map[Rdt := RdtAlloc(RdtAllocation(LC_GROUP, lcL3))]];
      var r := BudgetingSpec(cur, map[], [c], [c], beBmp, lcBmp, level, nsocks);
      r.0 && r.1 == map[c := map[Rdt := RdtAlloc(RdtAllocation(BE_GROUP, GroupSchema(beBmp, level, nsocks).value))]]
  {
    var beL3 := GroupSchema(beBmp, level, nsocks).value;
    var lcL3 := GroupSchema(lcBmp, level, nsocks).value;
    var cur := map[c := map[Rdt := RdtAlloc(RdtAllocation(LC_GROUP, lcL3))]];
    assert WellTyped(cur);
    assert ApplyAll(cur, map[], [c][..0], BE_GROUP, beL3) == map[];
    assert ApplyAll(cur, map[], [c], BE_GROUP, beL3) == SetAllocSpec(cur, map[], c, BE_GROUP, beL3);
    assert !AlreadyAllocated(cur, c, beL3);
    var mid := map[c := map[Rdt := RdtAlloc(RdtAllocation(BE_GROUP, beL3))]];
    assert SetAllocSpec(cur, map[], c, BE_GROUP, beL3) == mid;
    assert ApplyAll(cur, mid, [c][..0], LC_GROUP, lcL3) == mid;
    assert AlreadyAllocated(cur, c, lcL3);
    assert ApplyAll(cur, mid, [c], LC_GROUP, lcL3) == mid;
  }

  /** The LLC occupancy resource. */
  class LlcOccup {
    var beBmp: seq<string>
    var lcBmp: seq<string>
    var curAllocs: TasksAllocations
    var newAllocs: TasksAllocations
    /** update_allocs has run: cur_allocs, new_allocs and nsocks are set. */
    var allocsSet: bool
    var nsocks: nat
    var levelMax: Option<int>
    /** quota_level is kept by the Resource base class; callers set it. */
    var quotaLevel: int
    const exclusive: bool
    /** The CBM width the ladders were last built from. */
    ghost var bitcnt: Option<nat>

    ghost predicate Valid()
      reads this`allocsSet, this`curAllocs, this`bitcnt, this`beBmp, this`lcBmp, this`levelMax
    {
      && (allocsSet ==> WellTyped(curAllocs))
      && match bitcnt
         case None => beBmp == [] && lcBmp == [] && levelMax.None?
         case Some(b) =>
           var l := BuildLadders(b, exclusive);
           beBmp == l.be && lcBmp == l.lc && levelMax == Some(l.levelMax)
    }

    constructor(exclusive: bool)
      ensures Valid()
      ensures this.exclusive == exclusive && beBmp == [] && lcBmp == [] && !allocsSet
    {
      this.exclusive := exclusive;
      beBmp, lcBmp := [], [];
      curAllocs, newAllocs := map[], map[];
      allocsSet := false;
      nsocks := 0;
      levelMax := None;
      quotaLevel := 0;
      bitcnt := None;
    }

    /** update_allocs: store the allocations and the socket count; build the
        ladders only while be_bmp is empty. ok is false where
        _get_cbm_bit_count raises on a malformed mask. */
    method UpdateAllocs(cur: TasksAllocations, next: TasksAllocations, cbmMask: string, nsocks: nat)
      returns (ok: bool)
      requires Valid()
      requires WellTyped(cur)
      modifies this`curAllocs, this`newAllocs, this`nsocks, this`allocsSet
      modifies this`beBmp, this`lcBmp, this`levelMax, this`bitcnt
      ensures Valid()
      ensures curAllocs == cur && newAllocs == next && this.nsocks == nsocks && allocsSet
      ensures old(beBmp) != [] ==>
        ok && beBmp == old(beBmp) && lcBmp == old(lcBmp) && levelMax == old(levelMax)
      ensures old(beBmp) == [] ==> match CbmBitCount(cbmMask)
        case None =>
          !ok && beBmp == old(beBmp) && lcBmp == old(lcBmp) && levelMax == old(levelMax)
        case Some(b) =>
          var l := BuildLadders(b, exclusive);
          ok && beBmp == l.be && lcBmp == l.lc && levelMax == Some(l.levelMax)
    {
      curAllocs := cur;
      newAllocs := next;
      this.nsocks := nsocks;
      allocsSet := true;
      ok := true;
      if beBmp == [] {
        var count := CbmBitCount(cbmMask);
        if count.None? {
          return false;
        }
        var b := count.value;
        beBmp := BeLadder(b);
        lcBmp := LcLadder(b);
        if exclusive {
          beBmp := Take(beBmp, b / 2);
          lcBmp := Take(lcBmp, b / 2);
        }
        var top: int := if exclusive then (b as int) / 2 - 2 else (b as int) - 2;
        levelMax := Some(top);
        bitcnt := Some(b);
        ghost var l := BuildLadders(b, exclusive);
        assert beBmp == l.be && lcBmp == l.lc && top == l.levelMax;
      }
    }

    /** _set_alloc: record (name, alloc) as that task's RDT allocation in
        new_allocs unless cur_allocs already has that L3 string. */
    method SetAlloc(taskId: string, name: string, alloc: string)
      requires allocsSet && WellTyped(curAllocs)
      modifies this`newAllocs
      ensures newAllocs == SetAllocSpec(curAllocs, old(newAllocs), taskId, name, alloc)
    {
      var isNew := true;
      if taskId in curAllocs && Rdt in curAllocs[taskId] && alloc == curAllocs[taskId][Rdt].rdt.l3 {
        isNew := false;
      }
      if isNew {
        var taskAllocs: map<AllocationType, Allocation>;
        if taskId in newAllocs {
          taskAllocs := newAllocs[taskId];
        } else {
          taskAllocs := map[];
        }
        taskAllocs := taskAllocs[Rdt := RdtAlloc(RdtAllocation(name, alloc))];
        newAllocs := newAllocs[taskId := taskAllocs];
      }
    }

    /** _budgeting: build the schema for the group and request it for cid;
        ok is false where bmp[quota_level] raises IndexError. */
    method Budget(cid: string, isBe: bool) returns (ok: bool)
      requires allocsSet && WellTyped(curAllocs)
      modifies this`newAllocs
      ensures var bmp := if isBe then beBmp else lcBmp;
        var name := if isBe then BE_GROUP else LC_GROUP;
        var schema := GroupSchema(bmp, quotaLevel, nsocks);
        && ok == schema.Some?
        && newAllocs == if ok then SetAllocSpec(curAllocs, old(newAllocs), cid, name, schema.value) else old(newAllocs)
    {
      var bmp, name := lcBmp, LC_GROUP;
      if isBe {
        bmp, name := beBmp, BE_GROUP;
      }
      var l3Allocs := GroupSchema(bmp, quotaLevel, nsocks);
      if l3Allocs.None? {
        return false;
      }
      SetAlloc(cid, name, l3Allocs.value);
      ok := true;
    }

    /** One `if ids:` block of budgeting. */
    method BudgetIds(ids: seq<string>, isBe: bool) returns (ok: bool)
      requires allocsSet && WellTyped(curAllocs)
      modifies this`newAllocs
      ensures (ok, newAllocs) == BudgetGroup(curAllocs, old(newAllocs), ids,
        if isBe then BE_GROUP else LC_GROUP, if isBe then beBmp else lcBmp, quotaLevel, nsocks)
    {
      var bmp := if isBe then beBmp else lcBmp;
      ghost var name := if isBe then BE_GROUP else LC_GROUP;
      ghost var schema := GroupSchema(bmp, quotaLevel, nsocks);
      ghost var l3 := if schema.Some? then schema.value else "";
      ghost var expected := BudgetGroup(curAllocs, newAllocs, ids, name, bmp, quotaLevel, nsocks);
      if |ids| == 0 {
        return true;
      }
      var i := 0;
      while i < |ids|
        invariant 0 <= i <= |ids|
        invariant i > 0 ==> schema.Some?
        invariant newAllocs == ApplyAll(curAllocs, old(newAllocs), ids[..i], name, l3)
      {
        ghost var prev := newAllocs;
        ok := Budget(ids[i], isBe);
        if !ok {
          assert ids[..0] == [];
          assert expected == (false, old(newAllocs));
          return;
        }
        assert newAllocs == SetAllocSpec(curAllocs, prev, ids[i], name, l3);
        ApplyAllSnoc(curAllocs, old(newAllocs), ids, i, name, l3);
        i := i + 1;
      }
      assert ids[..i] == ids;
      // the log line indexes bmp[quota_level] once more
      ok := PyIndex(bmp, quotaLevel).Some?;
      assert expected == (ok, newAllocs);
    }

    /** budgeting: allocate every BE container, then every LC container. */
    method Budgeting(bes: seq<string>, lcs: seq<string>) returns (ok: bool)
      requires Valid() && allocsSet
      modifies this`newAllocs
      ensures Valid()
      ensures (ok, newAllocs) == BudgetingSpec(curAllocs, old(newAllocs), bes, lcs, beBmp, lcBmp, quotaLevel, nsocks)
      ensures levelMax.Some? && 0 <= quotaLevel <= levelMax.value ==> ok
    {
      ok := BudgetIds(bes, true);
      if ok {
        ok := BudgetIds(lcs, false);
      }
      if levelMax.Some? && 0 <= quotaLevel <= levelMax.value {
        LaddersShape(bitcnt.value, exclusive);
        BudgetingEffect(curAllocs, old(newAllocs), bes, lcs, beBmp, lcBmp, quotaLevel, nsocks);
      }
    }
  }
}

=== FILE: numerals.dfy ===
/** Positional numerals in bases 2 to 16: the digits Python's bin(), str() and
    hex() print (lower-case, most significant first, "0" for zero) and the
    digits Go's strconv.ParseUint and Python's int(s, 16) accept. */
module Numerals {

  import opened Wrappers

  /** The digits Python prints: '0'..'9' and lower-case 'a'..'f'. */
  predicate LowerDigit(c: char)
  {
    '0' <= c <= '9' || 'a' <= c <= 'f'
  }

  /** The character for digit d: '0'..'9', then 'a'..'f'. */
  function DigitChar(d: nat): (c: char)
    requires d < 16
    ensures DigitValue(c) == d && IsDigitIn(c, d + 1)
    ensures LowerDigit(c) && (c == '0' <==> d == 0)
  {
    if d < 10 then ('0' as int + d) as char else ('a' as int + d - 10) as char
  }

  /** The value of a digit character of either case, or 16 for anything that is not one. */
  function DigitValue(c: char): (v: nat)
    ensures v <= 16
    ensures v < 10 <==> '0' <= c <= '9'
  {
    if '0' <= c <= '9' then c as int - '0' as int
    else if 'a' <= c <= 'f' then c as int - 'a' as int + 10
    else if 'A' <= c <= 'F' then c as int - 'A' as int + 10
    else 16
  }

  predicate IsDigitIn(c: char, base: nat)
  {
    DigitValue(c) < base
  }

  predicate AllDigitsIn(s: string, base: nat)
  {
    forall k :: 0 <= k < |s| ==> IsDigitIn(s[k], base)
  }

  /** The value of a string of digits, read most significant digit first. */
  function ValueIn(s: string, base: nat): nat
    requires AllDigitsIn(s, base)
  {
    if |s| == 0 then 0
    else base * ValueIn(s[..|s| - 1], base) + DigitValue(s[|s| - 1])
  }

  /** The shortest numeral for n in the given base: lower-case digits, and
      no leading zero except in "0" itself. */
  function Format(n: nat, base: nat): (s: string)
    requires 2 <= base <= 16
    ensures |s| >= 1
    ensures AllDigitsIn(s, base)
    ensures forall k :: 0 <= k < |s| ==> LowerDigit(s[k])
    ensures s[0] == '0' <==> n == 0
    decreases n
  {
    if n < base then [DigitChar(n)]
    else
      DivLess(n, base);
      Format(n / base, base) + [DigitChar(n % base)]
  }

  /** Reading back what Format wrote gives the number. */
  lemma {:induction false} FormatRoundTrip(n: nat, base: nat)
    requires 2 <= base <= 16
    ensures ValueIn(Format(n, base), base) == n
    decreases n
  {
    if n < base {
      var s := Format(n, base);
      assert s == [DigitChar(n)];
      assert s[..0] == [];
      assert ValueIn(s[..0], base) == 0;
      assert ValueIn(s, base) == base * 0 + DigitValue(s[0]);
    } else {
      var q, r := n / base, n % base;
      DivLess(n, base);
      var front := Format(q, base);
      assert Format(n, base) == front + [DigitChar(r)];
      FormatRoundTrip(q, base);
      ValueInSnoc(front, DigitChar(r), base);
      var vq := ValueIn(front, base);
      assert vq == q;
      DivMod(n, base);
      assert ValueIn(Format(n, base), base) == base * vq + r;
    }
  }

  lemma ValueInSnoc(front: string, c: char, base: nat)
    requires AllDigitsIn(front, base) && IsDigitIn(c, base)
    ensures AllDigitsIn(front + [c], base)
    ensures ValueIn(front + [c], base) == base * ValueIn(front, base) + DigitValue(c)
  {
    var s := front + [c];
    assert s[..|s| - 1] == front;
  }

  lemma DivLess(n: nat, base: nat)
    requires 2 <= base <= n
    ensures 1 <= n / base < n
  {
  }

  lemma DivMod(n: nat, base: nat)
    requires 2 <= base
    ensures n == base * (n / base) + n % base
  {
  }

  /** Python's hex(): "0x" and the lower-case hexadecimal digits. */
  function Hex(n: nat): (s: string)
    ensures |s| >= 3 && s[..2] == "0x"
  {
    "0x" + Format(n, 16)
  }

  /** Python's int(s, 16): an optional "0x" or "0X" prefix followed by at least
      one hexadecimal digit; None where Python raises ValueError. */
  function ParseHex(s: string): (r: Option<nat>)
    ensures r.Some? ==> exists d :: HexBody(s, d) && r.value == ValueIn(d, 16)
  {
    var body := if |s| >= 2 && s[0] == '0' && (s[1] == 'x' || s[1] == 'X') then s[2..] else s;
    if |body| > 0 && AllDigitsIn(body, 16) then
      assert HexBody(s, body);
      Some(ValueIn(body, 16))
    else None
  }

  /** d is s without its optional prefix and consists of hexadecimal digits only. */
  ghost predicate HexBody(s: string, d: string)
  {
    && |d| > 0 && AllDigitsIn(d, 16)
    && (d == s || (|s| >= 2 && s[0] == '0' && (s[1] == 'x' || s[1] == 'X') && d == s[2..]))
  }

  /** hex() and int(_, 16) are inverse: int(hex(n), 16) == n. */
  lemma HexRoundTrip(n: nat)
    ensures ParseHex(Hex(n)) == Some(n)
  {
    var s := Hex(n);
    assert s[2..] == Format(n, 16);
    FormatRoundTrip(n, 16);
  }

  /** Neither a numeral nor a hex() string contains a character outside the
      digits and the prefix; in particular no separator used around them. */
  lemma NumeralHasNo(n: nat, base: nat, c: char)
    requires 2 <= base <= 16
    requires DigitValue(c) == 16
    ensures c !in Format(n, base)
  {
    var s := Format(n, base);
    forall k | 0 <= k < |s| ensures s[k] != c {
      assert IsDigitIn(s[k], base);
    }
  }

  lemma HexHasNo(n: nat, c: char)
    requires DigitValue(c) == 16 && c != 'x'
    ensures c !in Hex(n)
  {
    var s := Hex(n);
    var f := Format(n, 16);
    forall k | 2 <= k < |s| ensures s[k] != c {
      assert s[k] == f[k - 2];
      assert IsDigitIn(f[k - 2], 16);
    }
    assert s[0] == '0' && s[1] == 'x';
  }

  /** How many times c occurs in s. */
  function Count(s: string, c: char): (r: nat)
    ensures r <= |s|
  {
    if |s| == 0 then 0
    else Count(s[..|s| - 1], c) + (if s[|s| - 1] == c then 1 else 0)
  }
}

=== FILE: perf_scaling.dfy ===
/** The per-event totals pollPerf computes from two perf_event reads of every
    CPU. Each read gives, per CPU, one raw count per event plus the times the
    event group was enabled and actually running; when the kernel multiplexes
    counters, running < enabled and the raw delta is scaled up by
    running-delta / enabled-delta. A CPU whose enabled time did not advance
    adds nothing. */
module PerfScaling {

  import opened Uint64

  /** uint64(float64(rawD) / float64(enD) * float64(runD)), computed exactly
      and truncated; a value past 2^64 is reduced modulo 2^64. */
  function Scaled(rawD: u64, enD: u64, runD: u64): u64
    requires enD > 0
  {
    (rawD * runD / enD) % TWO_64
  }

  /** Without multiplexing (running == enabled) the raw delta is taken as is. */
  lemma ScaledNoMultiplexing(rawD: u64, d: u64)
    requires d > 0
    ensures Scaled(rawD, d, d) == rawD
  {
    DivUnique(rawD * d, d, rawD, 0);
  }

  /** A group that ran for part of its enabled time at most keeps the raw
      delta; it is scaled down, never up. */
  lemma ScaledBound(rawD: u64, enD: u64, runD: u64)
    requires 0 < enD && runD <= enD
    ensures Scaled(rawD, enD, runD) <= rawD
  {
    QuotientBound(rawD, runD, enD);
  }

  /** x * y / d <= x when y <= d, so the quotient of a uint64 needs no
      reduction. */
  lemma QuotientBound(x: nat, y: nat, d: nat)
    requires 0 < d && y <= d
    ensures x * y / d <= x
    ensures x < TWO_64 ==> (x * y / d) % TWO_64 <= x
  {
    var q, r := x * y / d, x * y % d;
    MulLe(y, d, x);
    if q > x {
      MulLe(x + 1, q, d);
      assert false;
    }
    if x < TWO_64 {
      SmallMod(q);
    }
  }

  lemma SmallMod(q: int)
    requires 0 <= q < TWO_64
    ensures q % TWO_64 == q
  {
  }

  lemma MulLe(x: nat, y: nat, c: nat)
    requires x <= y
    ensures c * x <= c * y && x * c <= y * c
  {
  }

  lemma MulPos(k: int, d: int)
    requires k >= 1 && d >= 1
    ensures k * d >= d
  {
  }

  /** Division is determined by any quotient and remainder that fit. */
  lemma DivUnique(a: int, d: int, q: int, r: int)
    requires d > 0 && a == q * d + r && 0 <= r < d
    ensures a / d == q
  {
    var q', r' := a / d, a % d;
    assert (q' - q) * d == r - r';
    if q' > q {
      MulPos(q' - q, d);
      assert false;
    } else if q' < q {
      MulPos(q - q', d);
      assert false;
    }
  }

  /** What CPU i adds to event j: nothing when its enabled time did not
      advance, else the scaled raw delta. */
  function Contribution(lastValue: seq<seq<u64>>, lastEnabled: seq<u64>, lastRunning: seq<u64>,
                        value: seq<seq<u64>>, enabled: seq<u64>, running: seq<u64>, i: nat, j: nat): u64
    requires i < |lastValue| == |lastEnabled| == |lastRunning| == |value| == |enabled| == |running|
    requires j < |lastValue[i]| && j < |value[i]|
  {
    var enD := Sub(enabled[i], lastEnabled[i]);
    if enD == 0 then 0
    else Scaled(Sub(value[i][j], lastValue[i][j]), enD, Sub(running[i], lastRunning[i]))
  }

  /** Shape of two reads of numCPU CPUs and numEvents events. */
  ghost predicate Reads(lastValue: seq<seq<u64>>, lastEnabled: seq<u64>, lastRunning: seq<u64>,
                        value: seq<seq<u64>>, enabled: seq<u64>, running: seq<u64>, numEvents: nat)
  {
    && |lastValue| == |lastEnabled| == |lastRunning| == |value| == |enabled| == |running|
    && (forall i :: 0 <= i < |lastValue| ==> |lastValue[i]| == numEvents)
    && (forall i :: 0 <= i < |value| ==> |value[i]| == numEvents)
  }

  /** The exact sum of event j's contributions over the CPUs below n. */
  function EventSum(lastValue: seq<seq<u64>>, lastEnabled: seq<u64>, lastRunning: seq<u64>,
                    value: seq<seq<u64>>, enabled: seq<u64>, running: seq<u64>, numEvents: nat,
                    j: nat, n: nat): nat
    requires Reads(lastValue, lastEnabled, lastRunning, value, enabled, running, numEvents)
    requires j < numEvents && n <= |value|
  {
    if n == 0 then 0 else
      EventSum(lastValue, lastEnabled, lastRunning, value, enabled, running, numEvents, j, n - 1)
      + Contribution(lastValue, lastEnabled, lastRunning, value, enabled, running, n - 1, j)
  }

  /** One more CPU adds its contribution to the sum. */
  lemma EventSumStep(lastValue: seq<seq<u64>>, lastEnabled: seq<u64>, lastRunning: seq<u64>,
                     value: seq<seq<u64>>, enabled: seq<u64>, running: seq<u64>, numEvents: nat,
                     j: nat, i: nat)
    requires Reads(lastValue, lastEnabled, lastRunning, value, enabled, running, numEvents)
    requires j < numEvents && i < |value|
    ensures EventSum(lastValue, lastEnabled, lastRunning, value, enabled, running, numEvents, j, i + 1)
         == EventSum(lastValue, lastEnabled, lastRunning, value, enabled, running, numEvents, j, i)
            + Contribution(lastValue, lastEnabled, lastRunning, value, enabled, running, i, j)
  {
  }

  /** The accumulation loop of pollPerf: res[j] += the contribution of CPU
      i to event j, CPU by CPU, in a uint64 accumulator that wraps. */
  method PerfTotals(lastValue: seq<seq<u64>>, lastEnabled: seq<u64>, lastRunning: seq<u64>,
                    value: seq<seq<u64>>, enabled: seq<u64>, running: seq<u64>, numEvents: nat)
    returns (res: seq<u64>)
    requires Reads(lastValue, lastEnabled, lastRunning, value, enabled, running, numEvents)
    ensures |res| == numEvents
    ensures forall j :: 0 <= j < numEvents ==>
      res[j] == EventSum(lastValue, lastEnabled, lastRunning, value, enabled, running, numEvents, j, |value|) % TWO_64
  {
    res := seq(numEvents, _ => 0);
    var i := 0;
    while i < |value|
      invariant 0 <= i <= |value|
      invariant |res| == numEvents
      invariant forall k :: 0 <= k < numEvents ==>
        res[k] == EventSum(lastValue, lastEnabled, lastRunning, value, enabled, running, numEvents, k, i) % TWO_64
    {
      var j := 0;
      while j < numEvents
        invariant 0 <= j <= numEvents && |res| == numEvents
        invariant forall k :: 0 <= k < j ==>
          res[k] == EventSum(lastValue, lastEnabled, lastRunning, value, enabled, running, numEvents, k, i + 1) % TWO_64
        invariant forall k :: j <= k < numEvents ==>
          res[k] == EventSum(lastValue, lastEnabled, lastRunning, value, enabled, running, numEvents, k, i) % TWO_64
      {
        var enD := Sub(enabled[i], lastEnabled[i]);
        ghost var before := EventSum(lastValue, lastEnabled, lastRunning, value, enabled, running, numEvents, j, i);
        ghost var after := EventSum(lastValue, lastEnabled, lastRunning, value, enabled, running, numEvents, j, i + 1);
        EventSumStep(lastValue, lastEnabled, lastRunning, value, enabled, running, numEvents, j, i);
        if enD != 0 {
          var add := Scaled(Sub(value[i][j], lastValue[i][j]), enD, Sub(running[i], lastRunning[i]));
          AddMod(before, add);
          res := res[j := Add(res[j], add)];
        }
        assert res[j] == after % TWO_64;
        j := j + 1;
      }
      i := i + 1;
    }
  }

  /** The sum of event j's raw deltas over the CPUs below n whose enabled
      time advanced. */
  function RawSum(lastValue: seq<seq<u64>>, lastEnabled: seq<u64>, lastRunning: seq<u64>,
                  value: seq<seq<u64>>, enabled: seq<u64>, running: seq<u64>, numEvents: nat,
                  j: nat, n: nat): nat
    requires Reads(lastValue, lastEnabled, lastRunning, value, enabled, running, numEvents)
    requires j < numEvents && n <= |value|
  {
    if n == 0 then 0 else
      RawSum(lastValue, lastEnabled, lastRunning, value, enabled, running, numEvents, j, n - 1)
      + (if enabled[n - 1] == lastEnabled[n - 1] then 0 else Sub(value[n - 1][j], lastValue[n - 1][j]))
  }

  /** With no multiplexing on any CPU, every event's total is the sum of its
      raw deltas. */
  lemma {:induction false} NoMultiplexingTotals(lastValue: seq<seq<u64>>, lastEnabled: seq<u64>, lastRunning: seq<u64>,
                                                value: seq<seq<u64>>, enabled: seq<u64>, running: seq<u64>,
                                                numEvents: nat, j: nat, n: nat)
    requires Reads(lastValue, lastEnabled, lastRunning, value, enabled, running, numEvents)
    requires j < numEvents && n <= |value|
    requires forall i :: 0 <= i < n ==> Sub(running[i], lastRunning[i]) == Sub(enabled[i], lastEnabled[i])
    ensures EventSum(lastValue, lastEnabled, lastRunning, value, enabled, running, numEvents, j, n)
         == RawSum(lastValue, lastEnabled, lastRunning, value, enabled, running, numEvents, j, n)
  {
    if n > 0 {
      NoMultiplexingTotals(lastValue, lastEnabled, lastRunning, value, enabled, running, numEvents, j, n - 1);
      var i := n - 1;
      var enD := Sub(enabled[i], lastEnabled[i]);
      if enD != 0 {
        ScaledNoMultiplexing(Sub(value[i][j], lastValue[i][j]), enD);
      }
    }
  }

  /** The values and running time a CPU reports are ignored while its
      enabled time stands still: two reads that differ only there give the
      same totals. */
  lemma {:induction false} IdleCpuIgnored(lastValue: seq<seq<u64>>, lastEnabled: seq<u64>, lastRunning: seq<u64>,
                                          value: seq<seq<u64>>, enabled: seq<u64>, running: seq<u64>,
                                          value': seq<seq<u64>>, running': seq<u64>,
                                          numEvents: nat, k: nat, j: nat, n: nat)
    requires Reads(lastValue, lastEnabled, lastRunning, value, enabled, running, numEvents)
    requires Reads(lastValue, lastEnabled, lastRunning, value', enabled, running', numEvents)
    requires k < |value| && enabled[k] == lastEnabled[k]
    requires forall i :: 0 <= i < |value| && i != k ==> value'[i] == value[i] && running'[i] == running[i]
    requires j < numEvents && n <= |value|
    ensures EventSum(lastValue, lastEnabled, lastRunning, value, enabled, running, numEvents, j, n)
         == EventSum(lastValue, lastEnabled, lastRunning, value', enabled, running', numEvents, j, n)
  {
    if n > 0 {
      IdleCpuIgnored(lastValue, lastEnabled, lastRunning, value, enabled, running, value', running', numEvents, k, j, n - 1);
    }
  }

  /** With running time never above enabled time, no event's total exceeds
      the sum of its raw deltas. */
  lemma {:induction false} TotalsBounded(lastValue: seq<seq<u64>>, lastEnabled: seq<u64>, lastRunning: seq<u64>,
                                         value: seq<seq<u64>>, enabled: seq<u64>, running: seq<u64>,
                                         numEvents: nat, j: nat, n: nat)
    requires Reads(lastValue, lastEnabled, lastRunning, value, enabled, running, numEvents)
    requires j < numEvents && n <= |value|
    requires forall i :: 0 <= i < n ==> Sub(running[i], lastRunning[i]) <= Sub(enabled[i], lastEnabled[i])
    ensures EventSum(lastValue, lastEnabled, lastRunning, value, enabled, running, numEvents, j, n)
         <= RawSum(lastValue, lastEnabled, lastRunning, value, enabled, running, numEvents, j, n)
  {
    if n > 0 {
      TotalsBounded(lastValue, lastEnabled, lastRunning, value, enabled, running, numEvents, j, n - 1);
      var i := n - 1;
      var enD := Sub(enabled[i], lastEnabled[i]);
      if enD != 0 {
        ScaledBound(Sub(value[i][j], lastValue[i][j]), enD, Sub(running[i], lastRunning[i]));
      }
    }
  }
}

=== FILE: proc_stat.dfy ===
/** The system-time figure Eris derives from the first line of /proc/stat:
    the line is split at every single space, every piece after the "cpu"
    label that strconv.ParseUint accepts as a decimal uint64 is added up in
    wrapping uint64 arithmetic, and the sum is multiplied by 10,000,000. */
module ProcStat {

  import opened Wrappers
  import opened Uint64
  import opened Numerals
  import Text

  /** The factor pollCPUUsage applies to the tick sum. */
  const TICK_SCALE: u64 := 10000000

  /** strconv.ParseUint(t, 10, 64): one or more ASCII decimal digits whose
      value fits in 64 bits; None wherever Go returns an error. */
  function ParseUint(t: string): (r: Option<u64>)
    ensures r.Some? ==> |t| > 0 && AllDigitsIn(t, 10)
  {
    if |t| > 0 && AllDigitsIn(t, 10) && ValueIn(t, 10) < TWO_64 then Some(ValueIn(t, 10))
    else None
  }

  /** ParseUint reads back what strconv.FormatUint(n, 10) writes. */
  lemma ParseUintRoundTrip(n: u64)
    ensures ParseUint(Format(n, 10)) == Some(n)
  {
    FormatRoundTrip(n, 10);
  }

  /** A piece holding anything but a digit, such as the trailing line break
      or the "cpu" label, is rejected. (The empty piece two spaces in a row
      leave is rejected too; StatSumSnoc states that case.) */
  lemma ParseUintRejects(t: string, k: nat)
    requires k < |t| && !('0' <= t[k] <= '9')
    ensures ParseUint(t) == None
  {
    assert !IsDigitIn(t[k], 10);
  }

  /** The exact (unbounded) sum of the pieces that parse. */
  function StatSum(tokens: seq<string>): nat
  {
    if |tokens| == 0 then 0
    else
      var last := ParseUint(tokens[|tokens| - 1]);
      StatSum(tokens[..|tokens| - 1]) + (if last.Some? then last.value else 0)
  }

  /** The pieces of the line after the label. */
  function StatFields(line: string): seq<string>
  {
    Text.Split(line, ' ')[1..]
  }

  /** The loop of pollCPUUsage over the pieces of the first /proc/stat line,
      then the scaling. ReadString succeeded, so the line ends in '\n' (Go
      panics otherwise). The result is the exact sum times 10,000,000,
      reduced modulo 2^64 as Go's wrapping arithmetic leaves it. */
  method SystemTicks(line: string) returns (sys: u64)
    requires |line| > 0 && line[|line| - 1] == '\n'
    ensures sys == (StatSum(StatFields(line)) * TICK_SCALE) % TWO_64
  {
    var data := Text.Split(line, ' ');
    sys := 0;
    var i := 1;
    while i < |data|
      invariant 1 <= i <= |data|
      invariant sys == StatSum(data[1..i]) % TWO_64
    {
      var v := ParseUint(data[i]);
      assert data[1..i + 1][..i - 1] == data[1..i];
      if v.Some? {
        AddMod(StatSum(data[1..i]), v.value);
        sys := Add(sys, v.value);
      }
      i := i + 1;
    }
    assert data[1..i] == StatFields(line);
    MulMod(StatSum(data[1..i]), TICK_SCALE);
    sys := Mul(sys, TICK_SCALE);
  }

  /** Reducing before a multiplication leaves the residue unchanged. */
  lemma MulMod(a: nat, c: nat)
    ensures ((a % TWO_64) * c) % TWO_64 == (a * c) % TWO_64
  {
    var q := a / TWO_64;
    var r := a % TWO_64;
    assert a * c == r * c + (q * c) * TWO_64 by {
      assert a == r + q * TWO_64;
    }
    ModShift(r * c, q * c);
  }

  /** The last piece of the line still carries the '\n' ReadString keeps, so
      it never counts: the sum is that of the pieces strictly between the
      label and the line break. */
  lemma {:induction false} LastFieldSkipped(line: string)
    requires |line| > 0 && line[|line| - 1] == '\n'
    ensures var parts := Text.Split(line, ' ');
      |parts| >= 2 ==> StatSum(StatFields(line)) == StatSum(parts[1..|parts| - 1])
  {
    var parts := Text.Split(line, ' ');
    Text.SplitLastEndsWith(line, ' ');
    if |parts| >= 2 {
      var fields := StatFields(line);
      var last := parts[|parts| - 1];
      ParseUintRejects(last, |last| - 1);
      assert fields[|fields| - 1] == last;
      assert fields[..|fields| - 1] == parts[1..|parts| - 1];
    }
  }

  /** Adding a field that parses adds its value; an empty field, as between
      two neighbouring spaces, adds nothing. */
  lemma StatSumSnoc(tokens: seq<string>, t: string)
    ensures StatSum(tokens + [t]) == StatSum(tokens) + (if ParseUint(t).Some? then ParseUint(t).value else 0)
    ensures t == "" ==> StatSum(tokens + [t]) == StatSum(tokens)
  {
    assert (tokens + [t])[..|tokens|] == tokens;
  }

  /** A worked line: in "cpu  3 4\n" the doubled space yields an empty
      field and the 4 still carries the line break, so only the 3 counts. */
  lemma StatLineExample()
    ensures StatSum(StatFields("cpu  3 4\n")) == 3
  {
    StatLineExampleFields();
    StatLineExampleSum();
  }

  lemma StatLineExampleFields()
    ensures StatFields("cpu  3 4\n") == ["", "3", "4\n"]
  {
    var pieces := ["cpu", "", "3", "4\n"];
    assert Text.Join(pieces, ' ') == "cpu  3 4\n";
    Text.SplitJoin(pieces, ' ');
  }

  lemma StatLineExampleSum()
    ensures StatSum(["", "3", "4\n"]) == 3
  {
    var f := ["", "3", "4\n"];
    ParseUintRoundTrip(3);
    assert Format(3, 10) == "3";
    ParseUintRejects("4\n", 1);
    assert f[..2] == ["", "3"];
    assert f[..2][..1] == [""];
    assert f[..2][..1][..0] == [];
    assert ParseUint("") == None;
    assert StatSum([""]) == 0;
    assert StatSum(["", "3"]) == 3;
  }
}

=== FILE: text.dfy ===
/** Splitting and joining strings around a one-character separator.
    Split follows Go's strings.Split with a non-empty separator: a string with
    n separators yields n + 1 pieces, and neighbouring separators yield empty
    pieces. Join follows Python's str.join. */
module Text {

  function Split(s: string, sep: char): (parts: seq<string>)
    ensures |parts| >= 1
    ensures forall k :: 0 <= k < |parts| ==> sep !in parts[k]
  {
    if |s| == 0 then [""]
    else
      var rest := Split(s[1..], sep);
      if s[0] == sep then [""] + rest
      else [[s[0]] + rest[0]] + rest[1..]
  }

  function Join(parts: seq<string>, sep: char): string
  {
    if |parts| == 0 then ""
    else if |parts| == 1 then parts[0]
    else parts[0] + [sep] + Join(parts[1..], sep)
  }

  /** Joining the pieces of a split gives back the original string. */
  lemma {:induction false} JoinSplit(s: string, sep: char)
    ensures Join(Split(s, sep), sep) == s
  {
    if |s| > 0 {
      var rest := Split(s[1..], sep);
      JoinSplit(s[1..], sep);
      if s[0] == sep {
        assert Split(s, sep) == [""] + rest;
        assert Join([""] + rest, sep) == "" + [sep] + Join(rest, sep);
        assert s == [s[0]] + s[1..];
      } else {
        var parts := Split(s, sep);
        assert parts == [[s[0]] + rest[0]] + rest[1..];
        if |rest| == 1 {
          assert Join(parts, sep) == [s[0]] + rest[0];
          assert s == [s[0]] + s[1..];
        } else {
          assert parts[1..] == rest[1..];
          assert Join(rest, sep) == rest[0] + [sep] + Join(rest[1..], sep);
          assert Join(parts, sep) == ([s[0]] + rest[0]) + [sep] + Join(rest[1..], sep);
          assert s == [s[0]] + s[1..];
        }
      }
    }
  }

  /** A separator-free prefix is glued onto the first piece of what follows it. */
  lemma {:induction false} SplitPrefix(a: string, t: string, sep: char)
    requires sep !in a
    ensures Split(a + t, sep) == [a + Split(t, sep)[0]] + Split(t, sep)[1..]
  {
    if |a| > 0 {
      assert (a + t)[1..] == a[1..] + t;
      assert (a + t)[0] == a[0];
      SplitPrefix(a[1..], t, sep);
      assert [a[0]] + (a[1..] + Split(t, sep)[0]) == a + Split(t, sep)[0];
    } else {
      var p := Split(t, sep);
      assert a + t == t;
      assert p == [p[0]] + p[1..];
      assert a + p[0] == p[0];
    }
  }

  /** Splitting a join of separator-free pieces gives back the pieces. */
  lemma {:induction false} SplitJoin(parts: seq<string>, sep: char)
    requires |parts| >= 1
    requires forall k :: 0 <= k < |parts| ==> sep !in parts[k]
    ensures Split(Join(parts, sep), sep) == parts
  {
    if |parts| == 1 {
      SplitPrefix(parts[0], "", sep);
      assert parts[0] + "" == parts[0];
    } else {
      var tail := Join(parts[1..], sep);
      SplitJoin(parts[1..], sep);
      assert ([sep] + tail)[0] == sep && ([sep] + tail)[1..] == tail;
      assert Split([sep] + tail, sep) == [""] + Split(tail, sep);
      SplitPrefix(parts[0], [sep] + tail, sep);
      assert parts[0] + [sep] + tail == parts[0] + ([sep] + tail);
      var q := Split([sep] + tail, sep);
      assert q[0] == "" && q[1..] == parts[1..];
      assert parts[0] + q[0] == parts[0];
      assert [parts[0]] + parts[1..] == parts;
    }
  }

  /** When a string ends in a character other than the separator, the last
      piece of its split ends in that character too. */
  lemma {:induction false} SplitLastEndsWith(s: string, sep: char)
    requires |s| > 0 && s[|s| - 1] != sep
    ensures var parts := Split(s, sep);
      |parts[|parts| - 1]| > 0 && parts[|parts| - 1][|parts[|parts| - 1]| - 1] == s[|s| - 1]
  {
    if |s| > 1 {
      SplitLastEndsWith(s[1..], sep);
    }
  }
}

=== FILE: uint64.dfy ===
/** Go's uint64 arithmetic: every operation wraps modulo 2^64. */
module Uint64 {

  const TWO_64: int := 0x1_0000_0000_0000_0000

  type u64 = x: int | 0 <= x < TWO_64

  /** Wrapping addition, as Go's `+` on uint64. */
  function Add(a: u64, b: u64): (r: u64)
    ensures a + b < TWO_64 ==> r == a + b
    ensures a + b >= TWO_64 ==> r == a + b - TWO_64
  {
    (a + b) % TWO_64
  }

  /** Wrapping subtraction, as Go's `-` on uint64: a counter that went
      backwards yields a huge value instead of a negative one. */
  function Sub(a: u64, b: u64): (r: u64)
    ensures b <= a ==> r == a - b
    ensures a < b ==> r == a - b + TWO_64
    ensures Add(b, r) == a
  {
    (a - b) % TWO_64
  }

  /** Wrapping multiplication, as Go's `*` on uint64. */
  function Mul(a: u64, b: u64): u64
  {
    (a * b) % TWO_64
  }

  /** Reducing a partial sum before adding one more term does not change the
      final residue: the fact behind every wrapping accumulator. */
  lemma AddMod(a: int, b: int)
    ensures (a % TWO_64 + b) % TWO_64 == (a + b) % TWO_64
  {
    var q := a / TWO_64;
    assert a == q * TWO_64 + a % TWO_64;
    assert a + b == (a % TWO_64 + b) + q * TWO_64;
    ModShift(a % TWO_64 + b, q);
  }

  lemma ModShift(x: int, q: int)
    ensures (x + q * TWO_64) % TWO_64 == x % TWO_64
  {
    var r := x % TWO_64;
    var d := x / TWO_64;
    assert x + q * TWO_64 == (d + q) * TWO_64 + r;
  }
}

=== FILE: wrappers.dfy ===
/** Option and Result, used wherever the source returns nil, an error value or raises. */
module Wrappers {

  datatype Option<+T> = None | Some(value: T)

  datatype Result<+R, +E> = Ok(value: R) | Err(error: E)
}
